=== FILE: README.md ===
# Collaborative whiteboard backend: a Dafny model of its core

This project models the decision-making core of a collaborative whiteboard
backend written in TypeScript, and proves properties about it.

- **The real-time collaboration relay** (`src/websocket/collaboration.ts`).
  It keeps a connection set and a shared document per board. It dispatches
  inbound socket messages (`join`, `sync`, `update`, `awareness`, `cursor`)
  to their handlers, fans messages out to the board's other registered connections whose
  sockets are open, and
  writes document changes back to storage. The relay is one pure function
  `Step(state, event)`. It returns the next `Server` state and the ordered
  list of sends: `Reply` on the socket that raised the event, or `Push` to a
  connection during a broadcast.
- **The request validators** (`src/utils/validators.ts`): e-mail shape,
  board titles, project-data shape, sanitising, the MIME allow-list and the
  size limit.
- **The project and asset endpoints** (`src/controllers/project.controller.ts`
  and `src/controllers/asset.controller.ts`). Each handler is a pure function
  from the database and the request to a status code, the new database and,
  where there is one, a response body. The owner / editor / member / public
  access rules live in `Store`:
  - `Store.CanEdit` is the write check at `project.controller.ts:33-35` and
    `asset.controller.ts:30-32`;
  - `Store.CanView` is the read check at `project.controller.ts:96-99` and
    `asset.controller.ts:102-105`;
  - `Store.CanSeeHistory` is the history check at
    `project.controller.ts:251-253`.
  `AssetController.StoragePath` and `AssetController.PublicUrl` are the object
  path and the public URL built at `asset.controller.ts:47` and `:62`.

Modules:

| module | file | contents |
|---|---|---|
| `Wrappers` | wrappers.dfy | `Option` |
| `Js` | js.dfy | JSON values, truthiness, `typeof`, `Array.isArray`, `||`, the `\s` / `trim()` whitespace class |
| `Validators` | validators.dfy | the six validators |
| `Store` | store.dfy | boards, members, versions, assets, the bucket, and the access predicates |
| `ProjectController` | project_controller.dfy | save, load, auto-save, create/list/restore versions |
| `AssetController` | asset_controller.dfy | upload, list and delete assets; storage paths |
| `YDoc` | ydoc.dfy | an abstract stand-in for the Yjs document |
| `Collaboration` | collaboration.dfy | relay state, invariant, handlers, `Step`, `Run` |
| `CollaborationProperties` | collaboration_props.dfy | properties that span several events |

Modelling decisions:

- **Yjs document.** A Yjs document is a set of operations. Applying an update
  is set union, and the full-state encoding is the set itself. The `update`
  event the document raises carries the content the update newly integrated
  (`Change(doc, u) = u - doc`). The event fires only when that content is
  non-empty. For a delta the document did not yet hold, that content is the
  delta itself (`YDoc.Change`). This is an assumption standing in for the
  CRDT merge, not a model of the Yjs algorithm.
- **Connection objects.** Each successful `join` creates a new connection
  object, named by a fresh `ConnId` from a counter.
  - A board's `Set<ClientConnection>` is a duplicate-free sequence in
    insertion order, because JavaScript sets iterate in insertion order.
  - Each socket's `clientConnection` closure variable is the map
    `clientConnection`.
  - `readyState === OPEN` is a set of open sockets. Two connection objects
    made by two joins on one socket share that socket's state.
- **Nondeterminism as input.**
  - The random colour is an input: an index below 10 into the palette.
  - The UUID, bucket name and ISO timestamp are inputs to the endpoints.
  - `JSON.stringify` and `JSON.parse` are function parameters.
- **Invariant.** `Collaboration.Valid` is the representation invariant every
  step preserves:
  - connection ids are fresh;
  - every set is non-empty and duplicate-free;
  - every set holds only connections of its own board;
  - every connection's board has a document.

The source is followed where it is surprising. The model reproduces three of
these behaviours and proves each as a lemma:

- the stored blob is only the latest change;
- `error` followed by `close` announces `user-left` twice;
- a second `join` on one socket leaves the first connection registered, and
  because broadcasts skip the sender's connection rather than its socket, a
  socket that joined one board twice hears its own join and its own deltas.

## Model

| member | source | states |
|---|---|---|
| Validators.ValidateEmail | src/utils/validators.ts:1-4 | Accepts exactly the strings made of three non-empty runs without `@` or whitespace, joined by an `@` and then a `.`. It is a single left-to-right scan proved equal to that declarative reading. |
| Validators.EmailShapeFacts | src/utils/validators.ts:1-4 | An accepted address has exactly one `@` and no whitespace. It also has a non-empty local part and a `.` after the `@` with text on both sides. |
| Validators.Trim | src/utils/validators.ts:6-8 | The result is the contiguous middle `s[a..b]` of the input, where everything before `a` and from `b` on is whitespace and, unless nothing is left, `s[a]` and `s[b-1]` are not (`IsTrimOf`). It is therefore empty exactly when the input is all whitespace, and an input without edge whitespace comes back unchanged. |
| Validators.TrimBounds | src/utils/validators.ts:7 | The cut points of `trim()`: nothing is left iff the input is all whitespace, the first and last characters kept are not whitespace, and an input without edge whitespace is kept whole. |
| Validators.TrimIsUnique | src/utils/validators.ts:7 | Any string that the declarative reading `IsTrimOf` accepts as a trim of the input is the result of `trim()`: the reading fixes the result. |
| Validators.ValidateBoardTitle | src/utils/validators.ts:6-8 | A title is valid iff it contains some non-whitespace character and its untrimmed length is at most 200. |
| Validators.ValidateProjectData | src/utils/validators.ts:10-20 | True iff the value is an object (not null, not an array) whose `elements` or `pages` property is an array. |
| Validators.RemoveAngles | src/utils/validators.ts:22-24 | The result has no `<` or `>`. Every other character keeps its count, and a string without angle brackets is unchanged. |
| Validators.RemoveAnglesConcat | src/utils/validators.ts:23 | The global replace works piece by piece: the result for `x + y` is the result for `x` followed by the result for `y`. With the single-character cases this fixes the order of what is kept. |
| Validators.SanitizeString | src/utils/validators.ts:22-24 | The result is the trim of the input with every angle bracket removed: it equals `RemoveAngles(t)` for every `t` that `IsTrimOf` accepts. It has no angle brackets, is never longer than the input, and is the identity on strings with neither angle brackets nor edge whitespace. |
| Validators.ValidateFileType | src/utils/validators.ts:26-37 | A type is accepted iff it is `application/pdf`, or `image/` followed by one of `jpeg`, `jpg`, `png`, `gif`, `webp` or `svg+xml`, compared exactly. |
| Validators.AllowedTypesShape | src/utils/validators.ts:27-35 | The seven-entry allow-list is exactly `application/pdf` plus the six `image/` subtypes. |
| Validators.FileTypeIsCaseSensitive | src/utils/validators.ts:26-37 | For every input: an accepted type contains no upper-case letter, and the upper-cased spelling of an accepted type is refused. For example `image/png` passes and `IMAGE/PNG` does not. |
| Validators.FileSizeLimit | src/utils/validators.ts:39-42 | The default limit is 10 MiB (10485760 bytes). Raising the megabyte limit never rejects a size a lower limit accepted. |
| Store.AccessNesting | src/controllers/project.controller.ts:96-99 | For a signed-in user the access levels are nested: owner, then write access (owner or non-viewer member), then history access (owner or member), then read access (adds public boards). |
| Store.ViewerIsReadOnly | src/controllers/project.controller.ts:33-35 | A non-owner whose only memberships have role `viewer` may load and list history but may not write. |
| Store.AnonymousAccess | src/controllers/project.controller.ts:96-99 | At handler level, without a user id only the public flag grants anything: read access iff public, and never write or history access. |
| Store.PublicFlagOnlyGrantsViewing | src/controllers/project.controller.ts:251-253 | Write and history access do not depend on the public flag, and a public board is readable by any caller of the handler. |
| ProjectController.SaveProjectData | src/controllers/project.controller.ts:7-63 | Checks run in this order, each status holding iff the earlier checks passed and its own failed: 401 without a user, 400 without truthy project data, 404 without the board, 403 without write access. Only a 200 writes, and it replaces just that board's blob. |
| ProjectController.StoredProjectData | src/controllers/project.controller.ts:106-113 | The loaded `projectData` is `null` without a stored blob. It is the parsed blob when parsing succeeds, and the empty project otherwise. |
| ProjectController.EmptyProjectIsValid | src/controllers/project.controller.ts:106-113 | The fallback document passes project-data validation. |
| ProjectController.LoadProjectData | src/controllers/project.controller.ts:68-134 | Loading never writes. It answers 404 iff there is no board, 403 iff the board exists without read access, and otherwise 200 with the stored project data. |
| ProjectController.AutoSaveProjectData | src/controllers/project.controller.ts:139-182 | The order is 401, then 404, then 403, with no 400 check; each holds iff the earlier checks passed and its own failed. A missing body then reaches `Buffer.from` and fails with 500. The answer is 200 iff all checks pass and the body is present, and only a 200 writes, replacing just that board's blob with the encoded data. |
| ProjectController.CreateProjectVersion | src/controllers/project.controller.ts:187-231 | The order is 401, 404, 403 for non-owners, then 400 without a stored blob, and 201 iff all pass. A 201 adds one version under a fresh id that carries the board's blob unchanged, the given name when non-empty or `Version <now>`, and the given thumbnail when non-empty or else the board's. Nothing else changes. |
| ProjectController.GetProjectVersions | src/controllers/project.controller.ts:236-276 | Never writes. It answers 404 iff there is no board, 403 iff there is no history access (the public flag is not consulted), and otherwise 200 with exactly that board's versions. |
| ProjectController.RestoreProjectVersion | src/controllers/project.controller.ts:281-327 | The order is 401, 404 without the board, 403 for non-owners, then 404 unless the version exists on this very board; 200 iff all pass. On 200 the board's blob becomes exactly the version's blob and nothing else changes. |
| ProjectController.SaveThenLoad | src/controllers/project.controller.ts:44-46 | A successful save followed by a load by the same user returns the saved data, when the JSON encoding round-trips. |
| ProjectController.AutoSaveThenLoad | src/controllers/project.controller.ts:169-175 | A successful auto-save followed by a load by the same user returns the saved data, when the JSON encoding round-trips. |
| ProjectController.CreateThenRestore | src/controllers/project.controller.ts:314-319 | Restoring a version created earlier brings back the blob the board had at creation, whatever was saved since. |
| ProjectController.CreatedVersionIsListed | src/controllers/project.controller.ts:217-224 | A newly created version appears in its owner's version list. |
| ProjectController.CreateAddsOneVersion | src/controllers/project.controller.ts:217-224 | Creating a version adds exactly the new id to that board's history, an id it did not hold before, and leaves every other board's history as it was. |
| ProjectController.AnonymousRequests | src/controllers/project.controller.ts:13-16 | At handler level, without a user id saving, auto-saving, creating a version and restoring all answer 401 and change nothing; the history is never listed, and only a public board loads. |
| AssetController.StoragePathNamesBoard | src/controllers/asset.controller.ts:47 | For a board id without `/`, the object path `boards/<board>/<uuid>-<name>` names its board as the segment after `boards/`. |
| AssetController.UploadAsset | src/controllers/asset.controller.ts:9-81 | The order is 401, 404, 403 without write access, then 400 without a file, and 201 iff all four pass. Nothing is written otherwise. A 201 stores the buffer at the object path and records one asset with the file's original name, MIME type and size, that path as `storageRef` and `https://storage.googleapis.com/<bucket>/<path>` as URL. |
| AssetController.GetAssets | src/controllers/asset.controller.ts:86-122 | Never writes. It answers 404 iff there is no board, 403 iff there is no read access (public, owner or any member), and otherwise 200 with exactly that board's assets. |
| AssetController.DeleteAsset | src/controllers/asset.controller.ts:127-180 | The order is 401, then 404 when the asset is missing or on another board, before the access check, which uses the asset's own board: 500 iff that board row is missing, 403 without write access, and 200 iff all pass. A 200 removes the record, and removes the object only when bucket deletion succeeded; nothing changes otherwise. |
| AssetController.UploadThenList | src/controllers/asset.controller.ts:102-105 | The uploader sees the new asset in the board's list. |
| AssetController.AssetListChanges | src/controllers/asset.controller.ts:65-74 | An upload adds exactly the new id to its board's asset list and leaves other boards' lists alone; a delete takes exactly its asset out of its board's list. |
| AssetController.AnonymousAssetRequests | src/controllers/asset.controller.ts:14-17 | At handler level, without a user id uploading and deleting answer 401 and change nothing, and the asset list is readable only on a public board. |
| AssetController.UploadThenDelete | src/controllers/asset.controller.ts:163-173 | Uploading and then deleting that asset restores the database and bucket, apart from the consumed id. |
| AssetController.DeleteSurvivesStorageFailure | src/controllers/asset.controller.ts:163-173 | A failed bucket deletion still removes the record, and leaves the bucket as it was. |
| YDoc.ApplyUpdate | src/websocket/collaboration.ts:194 | Applying an update keeps the document's content, adds the update's content, and adds nothing else. |
| YDoc.EncodeStateAsUpdate | src/websocket/collaboration.ts:148 | The full-state encoding rebuilds the document from an empty one. |
| YDoc.Change | src/websocket/collaboration.ts:117 | The save-hook payload is empty iff the update adds nothing. Applying it has the same effect as applying the update, and it holds only new content. For a delta disjoint from the document it is the delta. |
| YDoc.ApplyAllContents | src/websocket/collaboration.ts:209 | Applying a sequence of updates yields exactly the starting content plus every update's content. |
| YDoc.Convergence | src/websocket/collaboration.ts:209 | Two replicas that apply the same updates in any order, with repeats, end up equal. |
| YDoc.MergeLaws | src/websocket/collaboration.ts:209 | Updates commute, and applying one twice is applying it once. |
| Collaboration.Init | src/websocket/collaboration.ts:16-19 | A fresh server, with no sets and no documents, satisfies the invariant. |
| Collaboration.MembersRegistered | src/websocket/collaboration.ts:142-145 | Under the invariant a board's set lists registered connections of that board, each once; their sockets may be closed. The board has a set iff the set is non-empty. |
| Collaboration.Broadcast | src/websocket/collaboration.ts:291-307 | It sends nothing when the board has no set, and sends only the given message. It reaches a connection iff that connection is in the set, is not the sender and is open, and then exactly once. |
| Collaboration.LoadedDoc | src/websocket/collaboration.ts:98-112 | A new document holds the stored blob when the board has one that decodes. It is empty when the board is unknown, has no blob, or has a blob that does not decode, since that throw is caught and only logged. |
| Collaboration.Merge | src/websocket/collaboration.ts:117-129 | The board's document absorbs the update. The blob is overwritten by the newly integrated change alone, and only when there is one and storage has the board. Nothing else changes, and the invariant is kept. |
| Collaboration.NewConn | src/websocket/collaboration.ts:133-139 | The colour is one of the ten palette entries, the name defaults to `Anonymous` when falsy, and there is no cursor yet. |
| Collaboration.Register | src/websocket/collaboration.ts:96-145 | An existing document is reused, and a missing one is loaded without writing. The new connection is recorded, bound to the socket and appended to the board's set. No other set changes, and the invariant is kept. |
| Collaboration.JoinMessages | src/websocket/collaboration.ts:147-175 | The joiner first gets `sync` with the full document and last gets `active-users`. In between, every open prior connection gets `user-joined` exactly once, and the joiner's new connection gets none. |
| Collaboration.ActiveUsersAreThePriorMembers | src/websocket/collaboration.ts:163-170 | The active-users list is the presence of the connections already on the board, in joining order, never the joiner itself. |
| Collaboration.ActiveUsers | src/websocket/collaboration.ts:163-170 | The list a joiner receives equals the presences of the board's members before the join. |
| Collaboration.JoinAnnouncement | src/websocket/collaboration.ts:147-175 | The full state comes first and the prior members' list last, with only `user-joined` pushes in between. |
| Collaboration.Admit | src/websocket/collaboration.ts:96-175 | A join that passed the guard registers the connection and sends the join messages, keeping the invariant. |
| Collaboration.HandleJoin | src/websocket/collaboration.ts:83-178 | Without a board id it sends one `Board ID required` error and changes nothing. Otherwise it registers exactly one connection and announces it as above. |
| Collaboration.HandleSync | src/websocket/collaboration.ts:183-196 | It never sends. Before a join, or without a state, it is a no-op. Otherwise it merges the state into the board's document. |
| Collaboration.HandleUpdate | src/websocket/collaboration.ts:201-217 | Before a join, or without an update, it is a no-op. Otherwise it merges the delta and forwards the same delta exactly once to every other open connection of the board, never to the sender's own connection. |
| Collaboration.HandleAwareness | src/websocket/collaboration.ts:222-233 | The server state never changes. After a join it forwards the payload with the sender's id, name and colour exactly once to every other open connection of the board. |
| Collaboration.HandleCursor | src/websocket/collaboration.ts:238-251 | Before a join it is a no-op. Otherwise only the sender's `cursor` field changes, and the cursor is forwarded exactly once to every other open connection. |
| Collaboration.Leave | src/websocket/collaboration.ts:261-272 | The leaver's set loses the leaver and is deleted once empty. Other boards are untouched. |
| Collaboration.LeaveMembers | src/websocket/collaboration.ts:264-267 | Leaving removes exactly the leaver from the set. The set disappears iff the leaver was its only member. |
| Collaboration.LeaveAbsent | src/websocket/collaboration.ts:262-264 | Leaving a set one is not in changes nothing. |
| Collaboration.Depart | src/websocket/collaboration.ts:256-282 | Only the board sets change: the leaver is removed, other boards keep theirs and the document stays. Every remaining open member hears `user-left` exactly once. |
| Collaboration.HandleDisconnect | src/websocket/collaboration.ts:256-282 | Before any join it is a no-op. Otherwise the socket's current connection departs, and nothing changes if that connection had already left. |
| Collaboration.ClosingKeepsValid | src/websocket/collaboration.ts:71-78 | A socket ceasing to be open keeps the invariant. |
| Collaboration.CloseSocket | src/websocket/collaboration.ts:71-78 | Closing or erroring makes exactly that socket not open, changes nothing else, and keeps the invariant. |
| Collaboration.Dispatch | src/websocket/collaboration.ts:41-64 | An unknown message type changes nothing and sends nothing, and every handler keeps the invariant. |
| Collaboration.Step | src/websocket/collaboration.ts:37-78 | A frame that does not parse gets exactly one `Invalid message format` error on its socket and changes nothing. An unknown type does nothing. Every event keeps the invariant. |
| Collaboration.Run | src/websocket/collaboration.ts:32-79 | Any sequence of events keeps the invariant. |
| CollaborationProperties.JoinSnapshotRebuildsDocument | src/websocket/collaboration.ts:147-152 | The first message a joiner receives rebuilds the server's document, which is the reused document or the freshly loaded blob. |
| CollaborationProperties.UpdateKeepsPeersInSync | src/websocket/collaboration.ts:207-215 | Every other open connection of the board receives the delta exactly once, and the sender's connection receives nothing. A peer replica that matched the server matches it again after applying the delta. |
| CollaborationProperties.UpdatesCommute | src/websocket/collaboration.ts:201-217 | Two `update` events leave the same documents whichever is handled first. |
| CollaborationProperties.MergeCommute | src/websocket/collaboration.ts:194 | Two merges leave the same documents in either order. |
| CollaborationProperties.StoredBlobIsTheLastChange | src/websocket/collaboration.ts:117-125 | After two changing deltas, with the writes landing in order, the stored blob is only what the second added. A restart would load none of the earlier document and none of the first delta. |
| CollaborationProperties.ErrorThenCloseAnnouncesLeavingTwice | src/websocket/collaboration.ts:71-78 | `error` then `close` on one socket: the second disconnect changes nothing but repeats the broadcast, so every open remaining peer hears `user-left` twice. |
| CollaborationProperties.DisconnectTwice | src/websocket/collaboration.ts:256-282 | Running the disconnect handler again for a closed socket leaves the state alone and resends the same `user-left` messages. |
| CollaborationProperties.JoinKeepsMembers | src/websocket/collaboration.ts:142-145 | A join adds the joiner to its board, binds the socket to it, and removes no one from any board. |
| CollaborationProperties.DisconnectKeepsOthers | src/websocket/collaboration.ts:262-265 | A disconnect removes no connection but the socket's own. |
| CollaborationProperties.JoinListsEarlierMembers | src/websocket/collaboration.ts:163-175 | A joiner's active-users list contains the presence of every connection already on the board. |
| CollaborationProperties.RejoinLeavesStaleConnection | src/websocket/collaboration.ts:133-145 | After two joins on one socket and a close, the first connection is still registered on its board with a closed socket, and only the second is removed. |
| CollaborationProperties.RejoinSameBoard | src/websocket/collaboration.ts:133-145 | After two joins of one board from one open socket, the first connection is still in the set, open, on that socket, while the socket's variable names the second; the second join's `user-joined` reaches the first connection once. |
| CollaborationProperties.RejoinedSocketHearsItself | src/websocket/collaboration.ts:297-307 | The sender is excluded by connection, not by socket: after rejoining the same board, a socket is told of its own join and is sent its own next `update` back, once, through its first connection. |
| CollaborationProperties.JoinerHearsOfEveryMember | src/websocket/collaboration.ts:163-175 | Every later joiner of the board is told of every registered connection, stale ones included. |
| CollaborationProperties.DocumentOutlivesItsConnections | src/websocket/collaboration.ts:266-271 | When the last connection leaves, the set is deleted but the document is kept. The next joiner is sent that same document, not the stored blob. |

## Left out

- The `ws` transport, the HTTP upgrade and `JSON.parse` are abstracted away. An inbound frame is either `Malformed` (parsing throws, or the parsed value has no properties, so that reading `message.type` at `collaboration.ts:40` throws) or an already-classified `Request`.
- Collaboration.HandleJoin: the `await` of the storage read is taken as atomic. In the source, two first joins of one board can both find no document (`collaboration.ts:96`) before either stores its own (`:114`). The later one then replaces the earlier document and its save hook. Two more consequences are not modelled either:
  - frames that arrive on the same socket during the load see `clientConnection === null` and are dropped;
  - a `close` during the load runs the disconnect handler before the connection exists, so the connection registered afterwards stays on a closed socket for good.
- `Y.applyUpdate` throwing on malformed bytes in a `sync` or `update` message is not modelled. In the source that error reaches the `catch` at `collaboration.ts:65-67` and produces `Invalid message format`; here message payloads are always well-formed sets of operations. A stored blob that does not decode is modelled (`YDoc.Blob`): its throw is caught at `collaboration.ts:110-112` and the board starts from an empty document. Saving and auto-saving write JSON text into the same column, which is one way to get such a blob.
- Yjs internals (the CRDT algorithm, the binary update format and delete sets) are replaced by the set-of-operations stand-in in `YDoc`.
- The `if (!yDoc) return` guards of `handleSync` and `handleUpdate` (`collaboration.ts:190-191`, `204-205`) have no branch of their own. Under `Collaboration.Valid` every connection's board has a document, and documents are never removed. These guards therefore never fire.
- Collaboration.HandleJoin: only string board ids are modelled (`Option<string>`, guard `!boardId`). A non-string truthy `boardId`, such as a number, would be used as a map key in the source.
- Collaboration.Step: a message arriving on a socket the relay has not seen connect is ignored. This cannot happen with the `ws` library, which delivers messages only after `connection`.
- Collaboration.Merge: the save hook (`collaboration.ts:117-125`) is an async listener that `Y.applyUpdate` at `collaboration.ts:194` and `:209` does not await. The model applies the storage writes in the order of the changes; in the source two writes in flight may land in either order, so `CollaborationProperties.StoredBlobIsTheLastChange` holds only when each write finishes before the next change.
- Failures of the storage write in the save hook are only logged in the source. The model writes iff storage has the board row and otherwise leaves storage unchanged. Any other database error is not modelled.
- The Prisma and Firebase calls are replaced by the `Store.Db` maps. The 500 responses their failures would cause are not modelled, except the two that follow from the data: `autoSaveProjectData` without a body, and a missing asset board. The Firebase `makePublic` call, the `lastModified`/`uploadedAt` timestamps, the `orderBy` of listings (listings are sets) and the response field projections are not modelled either.
- The authentication middleware is not part of this model. Every project and asset route runs it first (`router.use(authenticateUser)` at `project.routes.ts:14` and `asset.routes.ts:17`). Without a token it answers 401 itself (`auth.ts:31-33`), and when it lets a request through it always sets `dbUserId` (`auth.ts:58-63`). So in the deployed app the handlers never see an absent user, and an anonymous load of a public board gets 401 from the middleware, not 200. The handlers' own `!userId` branches, `Store.AnonymousAccess`, `ProjectController.AnonymousRequests` and `AssetController.AnonymousAssetRequests` describe the handlers in isolation, where `userId` is an input that may be absent.
- JavaScript numbers are `int` here. Validators.FileSizeLimit: floating-point sizes and fractional limits are not modelled, nor are `NaN` and `Infinity` (`size <= NaN` is false). Validators.ValidateFileSize has no contract of its own; its properties are stated by `Validators.FileSizeLimit`.
- String lengths count `char`s (Unicode scalar values), not UTF-16 code units as `title.length` does. Validators.ValidateBoardTitle: a title with characters outside the Basic Multilingual Plane can be at most 200 `char`s here but longer than 200 UTF-16 units in JavaScript.
- `src/index.ts`, the routes, the health and user controllers, and `src/types/index.ts` are wiring or type declarations and are not part of this model.

=== FILE: asset_controller.dfy ===
/** The asset endpoints: upload a file into the storage bucket and record it,
    list a board's assets, delete an asset. */
module AssetController {
  import opened Wrappers
  import opened Js
  import opened Store
  import opened ProjectController

  /** The multipart upload as the handler receives it in `req.file` */
  datatype UploadedFile = UploadedFile(originalname: string, mimetype: string, size: int, buffer: Bytes)

  const StorageHost := "https://storage.googleapis.com/"
  const BoardsPrefix := "boards/"

  /** The bucket object path of an upload */
  function StoragePath(boardId: BoardId, fileId: string, originalname: string): string {
    BoardsPrefix + boardId + "/" + fileId + "-" + originalname
  }

  /** The public URL of a bucket object */
  function PublicUrl(bucket: string, path: string): string {
    StorageHost + bucket + "/" + path
  }

  /** The part of `s` before the first `c`, if `s` contains one */
  function Before(s: string, c: char): (r: Option<string>)
    ensures r.Some? ==> |r.value| < |s| && s[..|r.value|] == r.value && s[|r.value|] == c
    ensures r.Some? ==> c !in r.value
    ensures r.None? <==> c !in s
  {
    if |s| == 0 then None
    else if s[0] == c then Some([])
    else match Before(s[1..], c)
      case None => None
      case Some(rest) => Some([s[0]] + rest)
  }

  /** The board an object path belongs to: the segment after `boards/` */
  function BoardOfPath(path: string): Option<BoardId> {
    if |path| >= |BoardsPrefix| && path[..|BoardsPrefix|] == BoardsPrefix then
      Before(path[|BoardsPrefix|..], '/')
    else None
  }

  lemma {:induction false} BeforeOfConcat(p: string, c: char, q: string)
    requires c !in p
    ensures Before(p + [c] + q, c) == Some(p)
  {
    if |p| > 0 {
      var s := p + [c] + q;
      assert s[0] == p[0] && p[0] != c;
      assert s[1..] == p[1..] + [c] + q;
      BeforeOfConcat(p[1..], c, q);
      assert [p[0]] + p[1..] == p;
    }
  }

  /** The object path of an upload names its board, for a board id without `/`. */
  lemma StoragePathNamesBoard(boardId: BoardId, fileId: string, originalname: string)
    requires '/' !in boardId
    ensures BoardOfPath(StoragePath(boardId, fileId, originalname)) == Some(boardId)
  {
    var path := StoragePath(boardId, fileId, originalname);
    var rest := fileId + "-" + originalname;
    assert path == BoardsPrefix + (boardId + "/" + rest);
    assert path[|BoardsPrefix|..] == boardId + ['/'] + rest;
    BeforeOfConcat(boardId, '/', rest);
  }

  /** `uploadAsset`. `fileId` is the generated UUID, `bucket` the bucket name;
      the new asset's id is `db.nextId`. */
  function UploadAsset(db: Db, boardId: BoardId, userId: Option<UserId>, file: Option<UploadedFile>,
                       fileId: string, bucket: string): (r: Response<nat>)
    ensures r.status == Unauthorized <==> !SignedIn(userId)
    ensures r.status == NotFound <==> SignedIn(userId) && boardId !in db.boards
    ensures r.status == Forbidden <==>
      SignedIn(userId) && boardId in db.boards && !CanEdit(db.boards[boardId], userId)
    ensures r.status == BadRequest <==>
      SignedIn(userId) && boardId in db.boards && CanEdit(db.boards[boardId], userId) && file.None?
    ensures r.status == Created <==>
      SignedIn(userId) && boardId in db.boards && CanEdit(db.boards[boardId], userId) && file.Some?
    ensures r.status != Created ==> r.db == db
    ensures r.status == Created ==>
      && file.Some? && r.body == Some(db.nextId)
      && r.db.boards == db.boards && r.db.versions == db.versions
      && r.db.nextId == db.nextId + 1
      && r.db.assets.Keys == db.assets.Keys + {db.nextId}
      && (forall i :: i in db.assets && i != db.nextId ==> r.db.assets[i] == db.assets[i])
      && var a := r.db.assets[db.nextId];
         && a.boardId == boardId
         && a.fileName == file.value.originalname
         && a.fileType == file.value.mimetype
         && a.fileSize == file.value.size
         && a.storageRef == StoragePath(boardId, fileId, file.value.originalname)
         && a.url == StorageHost + bucket + "/" + a.storageRef
         && r.db.objects == db.objects[a.storageRef := file.value.buffer]
  {
    if !SignedIn(userId) then Response(Unauthorized, db, None)
    else if boardId !in db.boards then Response(NotFound, db, None)
    else if !CanEdit(db.boards[boardId], userId) then Response(Forbidden, db, None)
    else if file.None? then Response(BadRequest, db, None)
    else
      var f := file.value;
      var path := StoragePath(boardId, fileId, f.originalname);
      var asset := Asset(boardId, f.originalname, f.mimetype, f.size, PublicUrl(bucket, path), path);
      Response(Created,
               db.(objects := db.objects[path := f.buffer],
                   assets := db.assets[db.nextId := asset],
                   nextId := db.nextId + 1),
               Some(db.nextId))
  }

  /** The ids of the assets recorded for `boardId` */
  function AssetsOf(db: Db, boardId: BoardId): set<nat>
  {
    set i | i in db.assets && db.assets[i].boardId == boardId
  }

  /** `getAssets`: never changes the database. */
  function GetAssets(db: Db, boardId: BoardId, userId: Option<UserId>): (r: Response<set<nat>>)
    ensures r.db == db
    ensures r.status == NotFound <==> boardId !in db.boards
    ensures r.status == Forbidden <==> boardId in db.boards && !CanView(db.boards[boardId], userId)
    ensures r.status == Ok <==> boardId in db.boards && CanView(db.boards[boardId], userId)
    ensures r.status == Ok ==>
      r.body.Some? && forall i :: i in r.body.value <==> i in db.assets && db.assets[i].boardId == boardId
  {
    if boardId !in db.boards then Response(NotFound, db, None)
    else if !CanView(db.boards[boardId], userId) then Response(Forbidden, db, None)
    else Response(Ok, db, Some(AssetsOf(db, boardId)))
  }

  /** `deleteAsset`. `storageDeleted` says whether the bucket deletion
      succeeded; a failure there is only logged. The access check reads the
      asset's own board, which would throw (500) if that row were missing. */
  function DeleteAsset(db: Db, boardId: BoardId, userId: Option<UserId>, assetId: nat,
                       storageDeleted: bool): (r: Response<()>)
    ensures r.status == Unauthorized <==> !SignedIn(userId)
    ensures r.status == NotFound <==>
      SignedIn(userId) && (assetId !in db.assets || db.assets[assetId].boardId != boardId)
    ensures r.status == Forbidden <==>
      && SignedIn(userId) && assetId in db.assets && db.assets[assetId].boardId == boardId
      && boardId in db.boards && !CanEdit(db.boards[boardId], userId)
    ensures r.status == ServerError <==>
      && SignedIn(userId) && assetId in db.assets && db.assets[assetId].boardId == boardId
      && boardId !in db.boards
    ensures r.status == Ok <==>
      && SignedIn(userId) && assetId in db.assets && db.assets[assetId].boardId == boardId
      && boardId in db.boards && CanEdit(db.boards[boardId], userId)
    ensures r.status != Ok ==> r.db == db
    ensures r.status == Ok ==>
      && assetId in db.assets && db.assets[assetId].boardId == boardId
      && boardId in db.boards && CanEdit(db.boards[boardId], userId)
      && r.db == db.(assets := db.assets - {assetId},
                     objects := if storageDeleted then db.objects - {db.assets[assetId].storageRef}
                                else db.objects)
  {
    if !SignedIn(userId) then Response(Unauthorized, db, None)
    else if assetId !in db.assets || db.assets[assetId].boardId != boardId then
      Response(NotFound, db, None)
    else
      var asset := db.assets[assetId];
      if asset.boardId !in db.boards then Response(ServerError, db, None)
      else if !CanEdit(db.boards[asset.boardId], userId) then Response(Forbidden, db, None)
      else
        var objects := if storageDeleted then db.objects - {asset.storageRef} else db.objects;
        Response(Ok, db.(assets := db.assets - {assetId}, objects := objects), Some(()))
  }

  // ---------------------------------------------------------------------------
  // Properties relating several endpoints
  // ---------------------------------------------------------------------------

  /** The uploader sees the new asset in the board's asset list. */
  lemma UploadThenList(db: Db, boardId: BoardId, userId: Option<UserId>, file: Option<UploadedFile>,
                       fileId: string, bucket: string)
    requires UploadAsset(db, boardId, userId, file, fileId, bucket).status == Created
    ensures var after := UploadAsset(db, boardId, userId, file, fileId, bucket).db;
      && GetAssets(after, boardId, userId).status == Ok
      && db.nextId in GetAssets(after, boardId, userId).body.value
  {
    AccessNesting(db.boards[boardId], userId);
  }

  /** An upload adds exactly the new id to the board's asset list and leaves
      every other board's list alone; deleting an asset takes exactly its id
      out of its board's list. */
  lemma AssetListChanges(db: Db, boardId: BoardId, userId: Option<UserId>, file: Option<UploadedFile>,
                         fileId: string, bucket: string, assetId: nat, storageDeleted: bool,
                         other: BoardId)
    requires FreshIds(db)
    requires other != boardId
    ensures var up := UploadAsset(db, boardId, userId, file, fileId, bucket);
      up.status == Created ==>
        && AssetsOf(up.db, boardId) == AssetsOf(db, boardId) + {db.nextId}
        && db.nextId !in AssetsOf(db, boardId)
        && AssetsOf(up.db, other) == AssetsOf(db, other)
    ensures var del := DeleteAsset(db, boardId, userId, assetId, storageDeleted);
      del.status == Ok ==>
        && assetId in AssetsOf(db, boardId)
        && AssetsOf(del.db, boardId) == AssetsOf(db, boardId) - {assetId}
        && AssetsOf(del.db, other) == AssetsOf(db, other)
  {
  }

  /** A request without a user id changes nothing: uploading and deleting
      answer 401, and the asset list is readable only on a public board. */
  lemma AnonymousAssetRequests(db: Db, boardId: BoardId, file: Option<UploadedFile>, fileId: string,
                               bucket: string, assetId: nat, storageDeleted: bool)
    ensures UploadAsset(db, boardId, None, file, fileId, bucket) == Response(Unauthorized, db, None)
    ensures DeleteAsset(db, boardId, None, assetId, storageDeleted) == Response(Unauthorized, db, None)
    ensures GetAssets(db, boardId, None).status == Ok <==>
      boardId in db.boards && db.boards[boardId].isPublic
  {
  }

  /** Uploading a file and then deleting that asset, with the bucket deletion
      succeeding, leaves everything as it was except the consumed id. */
  lemma UploadThenDelete(db: Db, boardId: BoardId, userId: Option<UserId>, file: Option<UploadedFile>,
                         fileId: string, bucket: string)
    requires FreshIds(db)
    requires UploadAsset(db, boardId, userId, file, fileId, bucket).status == Created
    requires StoragePath(boardId, fileId, file.value.originalname) !in db.objects
    ensures var after := UploadAsset(db, boardId, userId, file, fileId, bucket).db;
      DeleteAsset(after, boardId, userId, db.nextId, true) ==
        Response(Ok, db.(nextId := db.nextId + 1), Some(()))
  {
    var after := UploadAsset(db, boardId, userId, file, fileId, bucket).db;
    var path := StoragePath(boardId, fileId, file.value.originalname);
    assert after.assets - {db.nextId} == db.assets;
    assert after.objects - {path} == db.objects;
  }

  /** When the bucket deletion fails the record is still removed and the
      object stays in the bucket. */
  lemma DeleteSurvivesStorageFailure(db: Db, boardId: BoardId, userId: Option<UserId>, assetId: nat)
    requires DeleteAsset(db, boardId, userId, assetId, true).status == Ok
    ensures var r := DeleteAsset(db, boardId, userId, assetId, false);
      && r.status == Ok && r.db.objects == db.objects && assetId !in r.db.assets
  {
  }
}

=== FILE: collaboration.dfy ===
/** The real-time collaboration relay: the per-board connection sets, the
    per-board shared documents, and the handlers for the socket events and
    message types. Every handler is a pure function from the server state and
    the event to the next state and the messages sent (an `Effect`). */
module Collaboration {
  import opened Wrappers
  import opened Js
  import opened YDoc

  type SocketId = nat
  type ConnId = nat
  type BoardId = string

  /** The ten presence colours; a join picks one uniformly at random. */
  const Palette: seq<string> := [
    "#FF6B6B", "#4ECDC4", "#45B7D1", "#FFA07A", "#98D8C8",
    "#F7DC6F", "#BB8FCE", "#85C1E2", "#F8B739", "#52B788"
  ]

  /** The random draw `Math.floor(Math.random() * colors.length)`, given as input */
  type PaletteIndex = i: nat | i < 10

  const DefaultUserName: Value := Str("Anonymous")

  /** A `ClientConnection` object: created by each successful join, never
      destroyed. `cursor` is `Undefined` until the first cursor message. */
  datatype Conn = Conn(
    socket: SocketId,
    boardId: BoardId,
    userId: Value,
    userName: Value,
    color: string,
    cursor: Value)

  /** The process-wide state of the relay.
      - `boardConnections`: board id to its connection set, in insertion order;
      - `boardDocs`: board id to its shared document;
      - `conns`: every connection object created so far, by identity;
      - `clientConnection`: each socket's `clientConnection` variable, when not null;
      - `open`, `seen`: sockets whose `readyState` is OPEN, and every socket so far;
      - `persisted`: the boards that exist in storage, with their stored blob;
      - `nextConn`: the identity the next connection object gets. */
  datatype Server = Server(
    boardConnections: map<BoardId, seq<ConnId>>,
    boardDocs: map<BoardId, Doc>,
    conns: map<ConnId, Conn>,
    clientConnection: map<SocketId, ConnId>,
    open: set<SocketId>,
    seen: set<SocketId>,
    persisted: map<BoardId, Option<Blob>>,
    nextConn: ConnId)

  /** A freshly started server over the given storage contents */
  function Init(persisted: map<BoardId, Option<Blob>>): (st: Server)
    ensures Valid(st)
  {
    Server(map[], map[], map[], map[], {}, {}, persisted, 0)
  }

  /** An inbound message after `JSON.parse`, by its `type` field. */
  datatype Request =
    | JoinReq(boardId: Option<string>, userId: Value, userName: Value)
    | SyncReq(state: Option<Update>)
    | UpdateReq(update: Option<Update>)
    | AwarenessReq(awareness: Value)
    | CursorReq(cursor: Value)
    | UnknownReq(kind: Value)

  /** An inbound frame: either it parses to a message or parsing throws */
  datatype Frame = Malformed | Parsed(request: Request)

  datatype Event =
    | Connected(socket: SocketId)
    | Received(socket: SocketId, frame: Frame, colorPick: PaletteIndex)
    | Closed(socket: SocketId)
    | Errored(socket: SocketId)

  datatype Presence = Presence(userId: Value, userName: Value, color: string, cursor: Value)

  /** Outbound messages */
  datatype Msg =
    | ErrorMsg(message: string)
    | SyncMsg(state: Update)
    | ActiveUsersMsg(users: seq<Presence>)
    | UserJoinedMsg(userId: Value, userName: Value, color: string)
    | UpdateMsg(update: Update)
    | AwarenessMsg(userId: Value, userName: Value, color: string, awareness: Value)
    | CursorMsg(userId: Value, userName: Value, color: string, cursor: Value)
    | UserLeftMsg(userId: Value, userName: Value)

  /** A send: `Reply` on the socket that raised the event, `Push` on the socket
      of a connection during a broadcast. */
  datatype Out = Reply(socket: SocketId, msg: Msg) | Push(conn: ConnId, msg: Msg)

  datatype Effect = Effect(st: Server, out: seq<Out>)

  // ---------------------------------------------------------------------------
  // Sequences without repetition, standing for JavaScript `Set`s
  // ---------------------------------------------------------------------------

  predicate NoDup<T(==)>(s: seq<T>) {
    forall i, j :: 0 <= i < j < |s| ==> s[i] != s[j]
  }

  lemma NoDupConcat<T>(a: seq<T>, b: seq<T>)
    requires NoDup(a) && NoDup(b)
    requires forall x :: x in a ==> x !in b
    ensures NoDup(a + b)
  {
    forall i, j | 0 <= i < j < |a + b| ensures (a + b)[i] != (a + b)[j] {
      if j < |a| {
      } else if i >= |a| {
        assert (a + b)[i] == b[i - |a|] && (a + b)[j] == b[j - |a|];
      } else {
        assert (a + b)[i] == a[i] && (a + b)[j] == b[j - |a|];
        assert b[j - |a|] in b;
      }
    }
  }

  /** The elements of `s` that satisfy `keep`, in order */
  function Filter(s: seq<ConnId>, keep: ConnId -> bool): (r: seq<ConnId>)
    ensures forall x :: x in r <==> x in s && keep(x)
    ensures |r| <= |s|
    ensures (forall x :: x in s ==> keep(x)) ==> r == s
    ensures NoDup(s) ==> NoDup(r)
  {
    if |s| == 0 then []
    else
      var rest := Filter(s[1..], keep);
      var head := if keep(s[0]) then [s[0]] else [];
      assert s == [s[0]] + s[1..];
      assert NoDup(s) ==> s[0] !in s[1..] && NoDup(s[1..]);
      if NoDup(s) then NoDupConcat(head, rest); head + rest else head + rest
  }

  /** `s` without `x` */
  function Without(s: seq<ConnId>, x: ConnId): (r: seq<ConnId>)
    ensures forall c :: c in r <==> c in s && c != x
    ensures x !in s ==> r == s
    ensures NoDup(s) ==> NoDup(r)
  {
    if |s| == 0 then []
    else
      var rest := Without(s[1..], x);
      var head := if s[0] != x then [s[0]] else [];
      assert s == [s[0]] + s[1..];
      assert NoDup(s) ==> s[0] !in s[1..] && NoDup(s[1..]);
      if NoDup(s) then NoDupConcat(head, rest); head + rest else head + rest
  }

  // ---------------------------------------------------------------------------
  // The representation invariant
  // ---------------------------------------------------------------------------

  /** `cs` is a well-formed connection set for board `b` */
  predicate RegisteredOn(st: Server, b: BoardId, cs: seq<ConnId>) {
    && |cs| > 0 && NoDup(cs)
    && forall c :: c in cs ==> c in st.conns && st.conns[c].boardId == b
  }

  /** Connection identities are fresh, every reference names an existing
      connection object, every connection's board has a document, sets are
      never empty and hold each connection once, in the set of its own board. */
  predicate Valid(st: Server) {
    && (forall c :: c in st.conns ==> c < st.nextConn)
    && (forall c :: c in st.conns ==> st.conns[c].boardId in st.boardDocs)
    && (forall c :: c in st.conns ==> st.conns[c].socket in st.seen)
    && (forall s :: s in st.clientConnection ==> st.clientConnection[s] in st.conns)
    && (forall s :: s in st.clientConnection ==> s in st.seen)
    && st.open <= st.seen
    && (forall b :: b in st.boardConnections ==> RegisteredOn(st, b, st.boardConnections[b]))
  }

  // ---------------------------------------------------------------------------
  // Broadcast
  // ---------------------------------------------------------------------------

  /** The connection set of `b`, empty when the board has none */
  function Members(st: Server, b: BoardId): seq<ConnId> {
    if b in st.boardConnections then st.boardConnections[b] else []
  }

  /** Every member of a board's set is a live connection object of that board,
      and is listed once. */
  lemma MembersRegistered(st: Server, b: BoardId)
    requires Valid(st)
    ensures NoDup(Members(st, b))
    ensures forall c :: c in Members(st, b) ==> c in st.conns && st.conns[c].boardId == b
    ensures b in st.boardConnections <==> |Members(st, b)| > 0
  {
    if b in st.boardConnections {
      assert RegisteredOn(st, b, st.boardConnections[b]);
    }
  }

  /** `connection.ws.readyState === WebSocket.OPEN` */
  predicate IsOpen(st: Server, c: ConnId) {
    c in st.conns && st.conns[c].socket in st.open
  }

  /** One `Push` of `m` per connection, in order */
  function Pushes(cs: seq<ConnId>, m: Msg): (out: seq<Out>)
    ensures |out| == |cs|
    ensures forall i :: 0 <= i < |cs| ==> out[i] == Push(cs[i], m)
    ensures forall c :: Push(c, m) in out <==> c in cs
    ensures NoDup(cs) ==> forall c :: multiset(out)[Push(c, m)] == if c in cs then 1 else 0
  {
    if |cs| == 0 then []
    else
      var rest := Pushes(cs[1..], m);
      assert cs == [cs[0]] + cs[1..];
      assert NoDup(cs) ==> cs[0] !in cs[1..] && NoDup(cs[1..]);
      [Push(cs[0], m)] + rest
  }

  /** `broadcastToBoard(boardId, m, sender)`: one send of `m` to each open
      connection of the board other than the sender. */
  function Broadcast(st: Server, b: BoardId, m: Msg, sender: Option<ConnId>): (out: seq<Out>)
    ensures b !in st.boardConnections ==> out == []
    ensures forall o :: o in out ==> o.Push? && o.msg == m
    ensures forall c :: Push(c, m) in out <==> c in Members(st, b) && Some(c) != sender && IsOpen(st, c)
    ensures NoDup(Members(st, b)) ==> forall c ::
      multiset(out)[Push(c, m)] ==
        if c in Members(st, b) && Some(c) != sender && IsOpen(st, c) then 1 else 0
  {
    var out := Pushes(Filter(Members(st, b), (c: ConnId) => Some(c) != sender && IsOpen(st, c)), m);
    assert forall o :: o in out ==> o.Push? && o.msg == m by {
      forall o | o in out ensures o.Push? && o.msg == m {
        var i :| 0 <= i < |out| && out[i] == o;
      }
    }
    out
  }

  // ---------------------------------------------------------------------------
  // Documents and persistence
  // ---------------------------------------------------------------------------

  /** A new board document: the stored blob applied to an empty document, or
      the empty document when the board is unknown, has no blob, or has a blob
      that does not decode (that throw is caught and only logged). The save
      hook is attached after this, so loading itself writes nothing. */
  function LoadedDoc(persisted: map<BoardId, Option<Blob>>, b: BoardId): (d: Doc)
    ensures b in persisted && persisted[b].Some? && persisted[b].value.Encoded? ==>
      d == persisted[b].value.update
    ensures b !in persisted || persisted[b].None? || persisted[b] == Some(Undecodable) ==>
      d == EmptyDoc
  {
    if b in persisted && persisted[b].Some? && persisted[b].value.Encoded? then
      ApplyUpdate(EmptyDoc, persisted[b].value.update)
    else EmptyDoc
  }

  /** Applies `u` to board `b`'s document. When this changes the document, the
      save hook stores that change, and only that change, as the board's blob;
      the write fails (and is only logged) if storage has no such board. */
  function Merge(st: Server, b: BoardId, u: Update): (st': Server)
    requires b in st.boardDocs
    ensures st'.boardDocs == st.boardDocs[b := ApplyUpdate(st.boardDocs[b], u)]
    ensures u <= st.boardDocs[b] ==> st'.persisted == st.persisted
    ensures !(u <= st.boardDocs[b]) && b in st.persisted ==>
      st'.persisted == st.persisted[b := Some(Encoded(Change(st.boardDocs[b], u)))]
    ensures b !in st.persisted ==> st'.persisted == st.persisted
    ensures st' == st.(boardDocs := st'.boardDocs, persisted := st'.persisted)
    ensures Valid(st) ==> Valid(st')
  {
    var doc := st.boardDocs[b];
    var change := Change(doc, u);
    var persisted :=
      if change != {} && b in st.persisted then st.persisted[b := Some(Encoded(change))] else st.persisted;
    var st' := st.(boardDocs := st.boardDocs[b := ApplyUpdate(doc, u)], persisted := persisted);
    assert Valid(st) ==> Valid(st') by {
      if Valid(st) {
        forall b' | b' in st'.boardConnections ensures RegisteredOn(st', b', st'.boardConnections[b']) {
          assert RegisteredOn(st, b', st.boardConnections[b']);
        }
      }
    }
    st'
  }

  // ---------------------------------------------------------------------------
  // Handlers
  // ---------------------------------------------------------------------------

  function PresenceOf(st: Server, c: ConnId): Presence
    requires c in st.conns
  {
    var conn := st.conns[c];
    Presence(conn.userId, conn.userName, conn.color, conn.cursor)
  }

  /** The presence records of a list of connections, in order */
  function Presences(st: Server, cs: seq<ConnId>): (ps: seq<Presence>)
    requires forall c :: c in cs ==> c in st.conns
    ensures |ps| == |cs|
    ensures forall i :: 0 <= i < |cs| ==> ps[i] == PresenceOf(st, cs[i])
  {
    seq(|cs|, i requires 0 <= i < |cs| => PresenceOf(st, cs[i]))
  }

  /** The `boardId` of a join passes the `!boardId` guard */
  predicate HasBoardId(boardId: Option<string>) {
    boardId.Some? && boardId.value != ""
  }

  /** The connection object a join creates */
  function NewConn(s: SocketId, b: BoardId, userId: Value, userName: Value, pick: PaletteIndex): (conn: Conn)
    ensures conn.color in Palette
    ensures Truthy(userName) ==> conn.userName == userName
    ensures !Truthy(userName) ==> conn.userName == DefaultUserName
    ensures conn.cursor == Undefined
  {
    Conn(s, b, userId, Or(userName, DefaultUserName), Palette[pick], Undefined)
  }

  /** The state `st'` is `st` after connection `st.nextConn`, described by
      `conn`, joined board `b` from socket `s`: the board's document was reused
      or loaded (and not saved), the connection was recorded, bound to the
      socket and appended to the board's set, and nothing else changed. */
  ghost predicate Registered(st: Server, s: SocketId, b: BoardId, conn: Conn, st': Server) {
    var c := st.nextConn;
    && b in st'.boardDocs
    && (b in st.boardDocs ==> st'.boardDocs == st.boardDocs)
    && (b !in st.boardDocs ==> st'.boardDocs == st.boardDocs[b := LoadedDoc(st.persisted, b)])
    && st'.persisted == st.persisted
    && c !in st.conns
    && st'.conns == st.conns[c := conn]
    && st'.clientConnection == st.clientConnection[s := c]
    && Members(st', b) == Members(st, b) + [c]
    && (forall b' :: b' != b ==> Members(st', b') == Members(st, b'))
    && st'.open == st.open && st'.seen == st.seen
  }

  function Register(st: Server, s: SocketId, b: BoardId, conn: Conn): (st': Server)
    requires Valid(st) && s in st.seen && conn.socket == s && conn.boardId == b
    ensures Valid(st')
    ensures Registered(st, s, b, conn, st')
  {
    var docs := if b in st.boardDocs then st.boardDocs else st.boardDocs[b := LoadedDoc(st.persisted, b)];
    var c := st.nextConn;
    var st' := st.(boardDocs := docs,
                   conns := st.conns[c := conn],
                   clientConnection := st.clientConnection[s := c],
                   boardConnections := st.boardConnections[b := Members(st, b) + [c]],
                   nextConn := c + 1);
    JoinKeepsValid(st, st', s, b, c);
    st'
  }

  /** The messages of a join of board `b` from socket `s` as connection
      `st.nextConn`: the joiner gets the full state first and the users
      already there last; in between, each open peer hears `m` once. */
  ghost predicate Announced(st: Server, s: SocketId, b: BoardId, m: Msg, doc: Doc, out: seq<Out>)
    requires Valid(st)
  {
    MembersRegistered(st, b);
    && |out| >= 2
    && out[0] == Reply(s, SyncMsg(EncodeStateAsUpdate(doc)))
    && out[|out| - 1] == Reply(s, ActiveUsersMsg(Presences(st, Members(st, b))))
    && (forall i :: 0 < i < |out| - 1 ==> out[i].Push? && out[i].msg == m && out[i].conn != st.nextConn)
    && (forall p :: multiset(out)[Push(p, m)] == if p in Members(st, b) && IsOpen(st, p) then 1 else 0)
  }

  /** What a join of board `b` from socket `s` does */
  ghost predicate JoinedBoard(st: Server, s: SocketId, b: BoardId, userId: Value, userName: Value,
                              pick: PaletteIndex, r: Effect)
    requires Valid(st)
  {
    var conn := NewConn(s, b, userId, userName, pick);
    && Registered(st, s, b, conn, r.st)
    && Announced(st, s, b, UserJoinedMsg(userId, conn.userName, conn.color), r.st.boardDocs[b], r.out)
  }

  /** A join that passed the board id guard */
  function Admit(st: Server, s: SocketId, b: BoardId, userId: Value, userName: Value,
                 pick: PaletteIndex): (r: Effect)
    requires Valid(st) && s in st.seen
    ensures Valid(r.st)
    ensures JoinedBoard(st, s, b, userId, userName, pick, r)
  {
    var conn := NewConn(s, b, userId, userName, pick);
    var st' := Register(st, s, b, conn);
    var m := UserJoinedMsg(userId, conn.userName, conn.color);
    var out := JoinMessages(st, s, b, conn, st', m);
    Effect(st', out)
  }

  /** The messages a join sends */
  function JoinMessages(st: Server, s: SocketId, b: BoardId, conn: Conn, st': Server, m: Msg): (out: seq<Out>)
    requires Valid(st) && s in st.seen && conn.socket == s && conn.boardId == b
    requires Valid(st') && Registered(st, s, b, conn, st')
    ensures Announced(st, s, b, m, st'.boardDocs[b], out)
  {
    var c := st.nextConn;
    var joined := Broadcast(st', b, m, Some(c));
    JoinPushes(st, st', b, c, m, joined);
    var users := ActiveUsers(st, s, b, conn, st');
    var doc := st'.boardDocs[b];
    JoinAnnouncement(st, s, b, m, doc, joined);
    [Reply(s, SyncMsg(EncodeStateAsUpdate(doc)))] + joined + [Reply(s, ActiveUsersMsg(users))]
  }

  /** The full state, then the `user-joined` pushes, then the prior members */
  lemma JoinAnnouncement(st: Server, s: SocketId, b: BoardId, m: Msg, doc: Doc, joined: seq<Out>)
    requires Valid(st)
    requires forall o :: o in joined ==> o.Push? && o.msg == m && o.conn != st.nextConn
    requires forall p ::
      multiset(joined)[Push(p, m)] == if p in Members(st, b) && IsOpen(st, p) then 1 else 0
    ensures Announced(st, s, b, m, doc,
        [Reply(s, SyncMsg(EncodeStateAsUpdate(doc)))] + joined +
        [Reply(s, ActiveUsersMsg(Presences(st, Members(st, b))))])
  {
    MembersRegistered(st, b);
    FramedPushes(Reply(s, SyncMsg(EncodeStateAsUpdate(doc))), joined,
                 Reply(s, ActiveUsersMsg(Presences(st, Members(st, b)))), m, st.nextConn);
  }

  /** The `active-users` list of a join: every connection in the board's set
      other than the joiner's own */
  function ActiveUsers(st: Server, s: SocketId, b: BoardId, conn: Conn, st': Server): (users: seq<Presence>)
    requires Valid(st) && Valid(st') && Registered(st, s, b, conn, st')
    ensures forall x :: x in Members(st, b) ==> x in st.conns
    ensures users == Presences(st, Members(st, b))
  {
    MembersRegistered(st, b);
    MembersRegistered(st', b);
    ActiveUsersAreThePriorMembers(st, s, b, conn, st');
    Presences(st', Without(Members(st', b), st.nextConn))
  }

  /** The active-users list a joiner gets describes the connections that were
      on the board before it, in joining order. */
  lemma ActiveUsersAreThePriorMembers(st: Server, s: SocketId, b: BoardId, conn: Conn, st': Server)
    requires Valid(st) && Valid(st') && Registered(st, s, b, conn, st')
    requires forall x :: x in Members(st, b) ==> x in st.conns
    requires forall x :: x in Members(st', b) ==> x in st'.conns
    ensures Presences(st', Without(Members(st', b), st.nextConn)) == Presences(st, Members(st, b))
  {
    WithoutLast(Members(st, b), st.nextConn);
  }

  /** Pushes framed by two replies */
  lemma FramedPushes(first: Out, pushes: seq<Out>, last: Out, m: Msg, c: ConnId)
    requires first.Reply? && last.Reply?
    requires forall o :: o in pushes ==> o.Push? && o.msg == m && o.conn != c
    ensures var out := [first] + pushes + [last];
      && |out| >= 2 && out[0] == first && out[|out| - 1] == last
      && (forall i :: 0 < i < |out| - 1 ==> out[i].Push? && out[i].msg == m && out[i].conn != c)
      && (forall p :: multiset(out)[Push(p, m)] == multiset(pushes)[Push(p, m)])
  {
    var out := [first] + pushes + [last];
    forall i | 0 < i < |out| - 1 ensures out[i].Push? && out[i].msg == m && out[i].conn != c {
      assert out[i] == pushes[i - 1];
    }
    assert multiset(out) == multiset([first]) + multiset(pushes) + multiset([last]);
  }

  /** `handleJoin` on socket `s`, with the initial load taken as atomic */
  function HandleJoin(st: Server, s: SocketId, boardId: Option<string>, userId: Value, userName: Value,
                      pick: PaletteIndex): (r: Effect)
    requires Valid(st) && s in st.seen
    ensures Valid(r.st)
    ensures !HasBoardId(boardId) ==> r == Effect(st, [Reply(s, ErrorMsg("Board ID required"))])
    ensures HasBoardId(boardId) ==> JoinedBoard(st, s, boardId.value, userId, userName, pick, r)
  {
    if !HasBoardId(boardId) then Effect(st, [Reply(s, ErrorMsg("Board ID required"))])
    else Admit(st, s, boardId.value, userId, userName, pick)
  }

  /** Removing an element appended to a list without it leaves the list. */
  lemma {:induction false} WithoutLast(s: seq<ConnId>, x: ConnId)
    requires x !in s
    ensures Without(s + [x], x) == s
    decreases |s|
  {
    if |s| == 0 {
      assert [] + [x] == [x];
      assert [x][1..] == [];
    } else {
      assert (s + [x])[0] == s[0];
      assert (s + [x])[1..] == s[1..] + [x];
      WithoutLast(s[1..], x);
      assert s == [s[0]] + s[1..];
    }
  }

  lemma JoinKeepsValid(st: Server, st': Server, s: SocketId, b: BoardId, c: ConnId)
    requires Valid(st) && s in st.seen && c == st.nextConn
    requires b in st'.boardDocs && st'.boardDocs.Keys >= st.boardDocs.Keys
    requires st'.conns.Keys == st.conns.Keys + {c}
    requires forall x :: x in st.conns ==> st'.conns[x] == st.conns[x]
    requires st'.conns[c].boardId == b && st'.conns[c].socket == s
    requires st'.clientConnection == st.clientConnection[s := c]
    requires st'.boardConnections == st.boardConnections[b := Members(st, b) + [c]]
    requires st'.open == st.open && st'.seen == st.seen && st'.nextConn == c + 1
    ensures Valid(st')
  {
    var prior := Members(st, b);
    assert c !in prior;
    NoDupConcat(prior, [c]);
    forall b' | b' in st'.boardConnections ensures RegisteredOn(st', b', st'.boardConnections[b']) {
      if b' == b {
        var cs := prior + [c];
        forall i | 0 <= i < |cs| ensures cs[i] in st'.conns && st'.conns[cs[i]].boardId == b {
          if i < |prior| {
            assert cs[i] == prior[i];
          }
        }
      }
    }
  }

  lemma JoinPushes(st: Server, st': Server, b: BoardId, c: ConnId, m: Msg, joined: seq<Out>)
    requires Valid(st) && Valid(st') && c !in st.conns
    requires Members(st', b) == Members(st, b) + [c]
    requires forall x :: x in st.conns ==> x in st'.conns && st'.conns[x].socket == st.conns[x].socket
    requires st'.open == st.open
    requires joined == Broadcast(st', b, m, Some(c))
    ensures forall o :: o in joined ==> o.Push? && o.msg == m && o.conn != c
    ensures forall p ::
      multiset(joined)[Push(p, m)] == if p in Members(st, b) && IsOpen(st, p) then 1 else 0
  {
    MembersRegistered(st, b);
    MembersRegistered(st', b);
    forall p ensures (p in Members(st', b) && Some(p) != Some(c) && IsOpen(st', p)) ==
                     (p in Members(st, b) && IsOpen(st, p)) {
      if p in Members(st, b) {
        assert IsOpen(st', p) == IsOpen(st, p);
      }
    }
    forall o | o in joined ensures o.conn != c {
      assert o == Push(o.conn, m);
    }
  }

  /** The connection bound to socket `s`, if it has joined */
  function Joined(st: Server, s: SocketId): Option<ConnId> {
    if s in st.clientConnection then Some(st.clientConnection[s]) else None
  }

  /** `handleSync`: merges a full state into the board's document, tells no one */
  function HandleSync(st: Server, s: SocketId, state: Option<Update>): (r: Effect)
    requires Valid(st)
    ensures Valid(r.st)
    ensures r.out == []
    ensures Joined(st, s).None? || state.None? ==> r.st == st
    ensures Joined(st, s).Some? && state.Some? ==>
      r.st == Merge(st, st.conns[st.clientConnection[s]].boardId, state.value)
  {
    if s !in st.clientConnection || state.None? then Effect(st, [])
    else
      var b := st.conns[st.clientConnection[s]].boardId;
      Effect(Merge(st, b, state.value), [])
  }

  /** `handleUpdate`: merges a delta into the board's document and forwards the
      same delta to every other open connection of the board. */
  function HandleUpdate(st: Server, s: SocketId, update: Option<Update>): (r: Effect)
    requires Valid(st)
    ensures Valid(r.st)
    ensures Joined(st, s).None? || update.None? ==> r == Effect(st, [])
    ensures Joined(st, s).Some? && update.Some? ==>
      var c := st.clientConnection[s];
      var b := st.conns[c].boardId;
      && r.st == Merge(st, b, update.value)
      && r.st.boardDocs[b] == ApplyUpdate(st.boardDocs[b], update.value)
      && (forall o :: o in r.out ==> o.Push? && o.msg == UpdateMsg(update.value) && o.conn != c)
      && (forall p :: multiset(r.out)[Push(p, UpdateMsg(update.value))] ==
            if p in Members(st, b) && p != c && IsOpen(st, p) then 1 else 0)
  {
    if s !in st.clientConnection || update.None? then Effect(st, [])
    else
      var c := st.clientConnection[s];
      var b := st.conns[c].boardId;
      MembersRegistered(st, b);
      // applying the update leaves the connection sets untouched, so the
      // broadcast reads them from `st`
      Effect(Merge(st, b, update.value), Broadcast(st, b, UpdateMsg(update.value), Some(c)))
  }

  /** `handleAwareness`: forwards the payload with the sender's presence; the
      server keeps none of it. */
  function HandleAwareness(st: Server, s: SocketId, state: Value): (r: Effect)
    requires Valid(st)
    ensures r.st == st
    ensures Joined(st, s).None? ==> r.out == []
    ensures Joined(st, s).Some? ==>
      var c := st.clientConnection[s];
      var conn := st.conns[c];
      var m := AwarenessMsg(conn.userId, conn.userName, conn.color, state);
      && (forall o :: o in r.out ==> o.Push? && o.msg == m && o.conn != c)
      && (forall p :: multiset(r.out)[Push(p, m)] ==
            if p in Members(st, conn.boardId) && p != c && IsOpen(st, p) then 1 else 0)
  {
    if s !in st.clientConnection then Effect(st, [])
    else
      var c := st.clientConnection[s];
      var conn := st.conns[c];
      assert NoDup(Members(st, conn.boardId)) by {
        if conn.boardId in st.boardConnections {
          assert RegisteredOn(st, conn.boardId, st.boardConnections[conn.boardId]);
        }
      }
      Effect(st, Broadcast(st, conn.boardId, AwarenessMsg(conn.userId, conn.userName, conn.color, state), Some(c)))
  }

  /** `handleCursor`: overwrites the sender's cursor, and nothing else, then
      forwards it with the sender's presence. */
  function HandleCursor(st: Server, s: SocketId, cursor: Value): (r: Effect)
    requires Valid(st)
    ensures Valid(r.st)
    ensures Joined(st, s).None? ==> r == Effect(st, [])
    ensures Joined(st, s).Some? ==>
      var c := st.clientConnection[s];
      var conn := st.conns[c];
      var m := CursorMsg(conn.userId, conn.userName, conn.color, cursor);
      && r.st == st.(conns := st.conns[c := conn.(cursor := cursor)])
      && (forall o :: o in r.out ==> o.Push? && o.msg == m && o.conn != c)
      && (forall p :: multiset(r.out)[Push(p, m)] ==
            if p in Members(st, conn.boardId) && p != c && IsOpen(st, p) then 1 else 0)
  {
    if s !in st.clientConnection then Effect(st, [])
    else
      var c := st.clientConnection[s];
      var conn := st.conns[c];
      var st' := st.(conns := st.conns[c := conn.(cursor := cursor)]);
      assert Valid(st') by {
        forall b | b in st'.boardConnections ensures RegisteredOn(st', b, st'.boardConnections[b]) {
          assert RegisteredOn(st, b, st.boardConnections[b]);
        }
      }
      assert NoDup(Members(st', conn.boardId)) by {
        if conn.boardId in st'.boardConnections {
          assert RegisteredOn(st', conn.boardId, st'.boardConnections[conn.boardId]);
        }
      }
      assert forall p :: IsOpen(st', p) == IsOpen(st, p);
      Effect(st', Broadcast(st', conn.boardId, CursorMsg(conn.userId, conn.userName, conn.color, cursor), Some(c)))
  }

  /** The board sets after `c` leaves board `b`: the set loses `c`, and is
      deleted once it is empty. */
  function Leave(sets: map<BoardId, seq<ConnId>>, b: BoardId, c: ConnId): (r: map<BoardId, seq<ConnId>>)
    ensures forall b' :: b' != b ==> (b' in r <==> b' in sets) && (b' in r ==> r[b'] == sets[b'])
    ensures b in r ==> b in sets && r[b] == Without(sets[b], c) && |r[b]| > 0
    ensures b in sets && |Without(sets[b], c)| > 0 ==> b in r
  {
    if b !in sets then sets
    else
      var rest := Without(sets[b], c);
      if |rest| == 0 then sets - {b} else sets[b := rest]
  }

  lemma LeaveKeepsValid(st: Server, b: BoardId, c: ConnId)
    requires Valid(st)
    ensures Valid(st.(boardConnections := Leave(st.boardConnections, b, c)))
  {
    var st' := st.(boardConnections := Leave(st.boardConnections, b, c));
    forall b' | b' in st'.boardConnections ensures RegisteredOn(st', b', st'.boardConnections[b']) {
      assert RegisteredOn(st, b', st.boardConnections[b']);
    }
  }

  /** What connection `c` leaving its board does to the board sets, and who
      hears of it */
  ghost predicate LeftBoard(st: Server, c: ConnId, r: Effect)
    requires c in st.conns
  {
    var conn := st.conns[c];
    var b := conn.boardId;
    var m := UserLeftMsg(conn.userId, conn.userName);
    && r.st == st.(boardConnections := r.st.boardConnections)
    && (forall x :: x in Members(r.st, b) <==> x in Members(st, b) && x != c)
    && (forall b' :: b' != b ==> Members(r.st, b') == Members(st, b'))
    && (b !in r.st.boardConnections <==> forall x :: x in Members(st, b) ==> x == c)
    && (forall o :: o in r.out ==> o.Push? && o.msg == m && o.conn != c)
    && (forall p :: multiset(r.out)[Push(p, m)] ==
          if p in Members(st, b) && p != c && IsOpen(st, p) then 1 else 0)
  }

  /** Leaving a set one is not in leaves the sets as they were. */
  lemma LeaveAbsent(st: Server, b: BoardId, c: ConnId)
    requires Valid(st)
    ensures c !in Members(st, b) ==> Leave(st.boardConnections, b, c) == st.boardConnections
  {
    if b in st.boardConnections {
      assert RegisteredOn(st, b, st.boardConnections[b]);
    }
  }

  /** The effect of connection `c` leaving */
  function Depart(st: Server, c: ConnId): (r: Effect)
    requires Valid(st) && c in st.conns
    ensures Valid(r.st)
    ensures LeftBoard(st, c, r)
    ensures c !in Members(st, st.conns[c].boardId) ==> r.st == st
  {
    var conn := st.conns[c];
    var b := conn.boardId;
    var st' := st.(boardConnections := Leave(st.boardConnections, b, c));
    LeaveKeepsValid(st, b, c);
    LeaveAbsent(st, b, c);
    MembersRegistered(st', b);
    var out := Broadcast(st', b, UserLeftMsg(conn.userId, conn.userName), None);
    DepartFacts(st, c, st', out);
    Effect(st', out)
  }

  lemma DepartFacts(st: Server, c: ConnId, st': Server, out: seq<Out>)
    requires c in st.conns
    requires st' == st.(boardConnections := Leave(st.boardConnections, st.conns[c].boardId, c))
    requires NoDup(Members(st', st.conns[c].boardId))
    requires out == Broadcast(st', st.conns[c].boardId, UserLeftMsg(st.conns[c].userId, st.conns[c].userName), None)
    ensures LeftBoard(st, c, Effect(st', out))
  {
    var b := st.conns[c].boardId;
    LeaveMembers(st.boardConnections, b, c);
    assert forall x :: x in Members(st', b) <==> x in Members(st, b) && x != c;
    assert forall b' :: b' != b ==> Members(st', b') == Members(st, b');
    DepartOut(st, c, st', out);
  }

  lemma DepartOut(st: Server, c: ConnId, st': Server, out: seq<Out>)
    requires c in st.conns
    requires st' == st.(boardConnections := st'.boardConnections)
    requires forall x :: x in Members(st', st.conns[c].boardId) <==> x in Members(st, st.conns[c].boardId) && x != c
    requires NoDup(Members(st', st.conns[c].boardId))
    requires out == Broadcast(st', st.conns[c].boardId, UserLeftMsg(st.conns[c].userId, st.conns[c].userName), None)
    ensures forall o :: o in out ==> o.Push? && o.msg == UserLeftMsg(st.conns[c].userId, st.conns[c].userName) && o.conn != c
    ensures forall p ::
      multiset(out)[Push(p, UserLeftMsg(st.conns[c].userId, st.conns[c].userName))] ==
        if p in Members(st, st.conns[c].boardId) && p != c && IsOpen(st, p) then 1 else 0
  {
    var m := UserLeftMsg(st.conns[c].userId, st.conns[c].userName);
    assert forall p :: IsOpen(st', p) == IsOpen(st, p);
    forall o | o in out ensures o.conn != c {
      assert o == Push(o.conn, m);
    }
  }

  /** Leaving removes exactly the leaver from the board's set */
  lemma LeaveMembers(sets: map<BoardId, seq<ConnId>>, b: BoardId, c: ConnId)
    ensures var r := Leave(sets, b, c);
      forall x :: (b in r && x in r[b]) <==> (b in sets && x in sets[b] && x != c)
    ensures var r := Leave(sets, b, c);
      b !in r <==> (b in sets ==> forall x :: x in sets[b] ==> x == c)
  {
    var r := Leave(sets, b, c);
    if b in sets && b !in r {
      assert Without(sets[b], c) == [];
    }
    if b in r {
      assert r[b][0] in Without(sets[b], c);
    }
  }

  /** `handleDisconnect`: the socket's current connection leaves its board set
      (the set goes when it empties, the document stays) and the remaining
      open connections hear `user-left`. */
  function HandleDisconnect(st: Server, s: SocketId): (r: Effect)
    requires Valid(st)
    ensures Valid(r.st)
    ensures Joined(st, s).None? ==> r == Effect(st, [])
    ensures Joined(st, s).Some? ==> LeftBoard(st, st.clientConnection[s], r)
    ensures Joined(st, s).Some? ==>
      var c := st.clientConnection[s];
      c !in Members(st, st.conns[c].boardId) ==> r.st == st
  {
    if s !in st.clientConnection then Effect(st, [])
    else Depart(st, st.clientConnection[s])
  }

  /** A socket that stops being open leaves the invariant intact. */
  lemma ClosingKeepsValid(st: Server, s: SocketId)
    requires Valid(st)
    ensures Valid(st.(open := st.open - {s}))
  {
    var st' := st.(open := st.open - {s});
    forall b | b in st'.boardConnections ensures RegisteredOn(st', b, st'.boardConnections[b]) {
      assert RegisteredOn(st, b, st.boardConnections[b]);
    }
  }

  /** The socket `s` stops being open (`close` or `error`); nothing else changes. */
  function CloseSocket(st: Server, s: SocketId): (st': Server)
    requires Valid(st)
    ensures Valid(st')
    ensures s !in st'.open
    ensures forall s' :: s' != s ==> (s' in st'.open <==> s' in st.open)
    ensures st' == st.(open := st'.open)
  {
    ClosingKeepsValid(st, s);
    st.(open := st.open - {s})
  }

  /** The message dispatch of one parsed inbound message */
  function Dispatch(st: Server, s: SocketId, req: Request, pick: PaletteIndex): (r: Effect)
    requires Valid(st) && s in st.seen
    ensures Valid(r.st)
    ensures req.UnknownReq? ==> r == Effect(st, [])
  {
    match req
    case JoinReq(boardId, userId, userName) => HandleJoin(st, s, boardId, userId, userName, pick)
    case SyncReq(state) => HandleSync(st, s, state)
    case UpdateReq(update) => HandleUpdate(st, s, update)
    case AwarenessReq(state) => HandleAwareness(st, s, state)
    case CursorReq(cursor) => HandleCursor(st, s, cursor)
    case UnknownReq(_) => Effect(st, [])
  }

  /** The relay's reaction to one socket event. A frame that does not parse is
      answered with one error on its socket; closing and erroring both run the
      disconnect handler after the socket stops being open. */
  function Step(st: Server, ev: Event): (r: Effect)
    requires Valid(st)
    ensures Valid(r.st)
    ensures ev.Received? && ev.frame.Malformed? ==>
      r == Effect(st, [Reply(ev.socket, ErrorMsg("Invalid message format"))])
    ensures ev.Received? && ev.frame.Parsed? && ev.frame.request.UnknownReq? ==> r == Effect(st, [])
  {
    match ev
    case Connected(s) =>
      if s in st.seen then Effect(st, [])
      else Effect(st.(open := st.open + {s}, seen := st.seen + {s}), [])
    case Received(s, frame, pick) =>
      (match frame
       case Malformed => Effect(st, [Reply(s, ErrorMsg("Invalid message format"))])
       case Parsed(req) =>
         if s in st.seen then Dispatch(st, s, req, pick) else Effect(st, []))
    case Closed(s) => HandleDisconnect(CloseSocket(st, s), s)
    case Errored(s) => HandleDisconnect(CloseSocket(st, s), s)
  }

  /** The events processed one after another; the sends are collected in order. */
  function Run(st: Server, evs: seq<Event>): (r: Effect)
    requires Valid(st)
    ensures Valid(r.st)
    ensures |evs| == 0 ==> r == Effect(st, [])
    decreases |evs|
  {
    if |evs| == 0 then Effect(st, [])
    else
      var first := Step(st, evs[0]);
      var rest := Run(first.st, evs[1..]);
      Effect(rest.st, first.out + rest.out)
  }
}

=== FILE: collaboration_props.dfy ===
/** Properties of the relay that span several events: what peers' replicas
    see, what the order of deltas does and does not change, and the three
    behaviours of the relay that outlive a connection (stored blobs, repeated
    `user-left`, connections left behind by a second join). */
module CollaborationProperties {
  import opened Wrappers
  import opened Js
  import opened YDoc
  import opened Collaboration

  function UpdateFrom(s: SocketId, u: Update, pick: PaletteIndex): Event {
    Received(s, Parsed(UpdateReq(Some(u))), pick)
  }

  function JoinFrom(s: SocketId, b: BoardId, userId: Value, userName: Value, pick: PaletteIndex): Event {
    Received(s, Parsed(JoinReq(Some(b), userId, userName)), pick)
  }

  /** The board a joined socket's connection is on */
  function BoardOf(st: Server, s: SocketId): BoardId
    requires Valid(st) && s in st.clientConnection
  {
    st.conns[st.clientConnection[s]].boardId
  }

  lemma StepUpdate(st: Server, s: SocketId, u: Update, pick: PaletteIndex)
    requires Valid(st) && s in st.seen
    ensures Step(st, UpdateFrom(s, u, pick)) == HandleUpdate(st, s, Some(u))
  {
  }

  lemma StepJoin(st: Server, s: SocketId, b: BoardId, userId: Value, userName: Value, pick: PaletteIndex)
    requires Valid(st) && s in st.seen
    ensures Step(st, JoinFrom(s, b, userId, userName, pick)) == HandleJoin(st, s, Some(b), userId, userName, pick)
  {
  }

  lemma StepLeave(st: Server, s: SocketId)
    requires Valid(st)
    ensures Step(st, Closed(s)) == HandleDisconnect(CloseSocket(st, s), s)
    ensures Step(st, Errored(s)) == HandleDisconnect(CloseSocket(st, s), s)
  {
  }

  // ---------------------------------------------------------------------------
  // Replicas
  // ---------------------------------------------------------------------------

  /** A joiner rebuilds the server's document from the `sync` it is sent
      first: the existing document, or the stored blob for a board that had
      none in memory. */
  lemma JoinSnapshotRebuildsDocument(st: Server, s: SocketId, b: BoardId, userId: Value, userName: Value,
                                     pick: PaletteIndex)
    requires Valid(st) && s in st.seen && b != ""
    ensures var r := Step(st, JoinFrom(s, b, userId, userName, pick));
      && |r.out| > 0 && r.out[0].Reply? && r.out[0].socket == s && r.out[0].msg.SyncMsg?
      && ApplyUpdate(EmptyDoc, r.out[0].msg.state) == r.st.boardDocs[b]
      && (b in st.boardDocs ==> r.st.boardDocs[b] == st.boardDocs[b])
      && (b !in st.boardDocs ==> r.st.boardDocs[b] == LoadedDoc(st.persisted, b))
  {
    StepJoin(st, s, b, userId, userName, pick);
  }

  /** A delta sent by a joined socket reaches each other open connection of
      its board exactly once, and a peer whose replica equalled the server's
      document before is equal to it again after applying the delta. The
      sender's connection is sent nothing back (its socket may still hear the
      delta through an older connection: `RejoinedSocketHearsItself`). */
  lemma UpdateKeepsPeersInSync(st: Server, s: SocketId, u: Update, pick: PaletteIndex, p: ConnId, replica: Doc)
    requires Valid(st) && s in st.seen && s in st.clientConnection
    requires p in Members(st, BoardOf(st, s)) && p != st.clientConnection[s] && IsOpen(st, p)
    requires replica == st.boardDocs[BoardOf(st, s)]
    ensures var r := Step(st, UpdateFrom(s, u, pick));
      && multiset(r.out)[Push(p, UpdateMsg(u))] == 1
      && (forall o :: o in r.out ==> o.Push? && o.conn != st.clientConnection[s])
      && ApplyUpdate(replica, u) == r.st.boardDocs[BoardOf(st, s)]
  {
    StepUpdate(st, s, u, pick);
  }

  /** Two deltas leave the documents the same whichever is handled first. */
  lemma UpdatesCommute(st: Server, s1: SocketId, u1: Update, s2: SocketId, u2: Update, pick: PaletteIndex)
    requires Valid(st) && s1 in st.seen && s2 in st.seen
    ensures var e1 := UpdateFrom(s1, u1, pick);
      var e2 := UpdateFrom(s2, u2, pick);
      Step(Step(st, e1).st, e2).st.boardDocs == Step(Step(st, e2).st, e1).st.boardDocs
  {
    StepUpdate(st, s1, u1, pick);
    StepUpdate(st, s2, u2, pick);
    var a := HandleUpdate(st, s1, Some(u1)).st;
    var b := HandleUpdate(st, s2, Some(u2)).st;
    StepUpdate(a, s2, u2, pick);
    StepUpdate(b, s1, u1, pick);
    MergesCommute(st, s1, u1, s2, u2);
  }

  lemma MergesCommute(st: Server, s1: SocketId, u1: Update, s2: SocketId, u2: Update)
    requires Valid(st)
    ensures var a := HandleUpdate(st, s1, Some(u1)).st;
      var b := HandleUpdate(st, s2, Some(u2)).st;
      HandleUpdate(a, s2, Some(u2)).st.boardDocs == HandleUpdate(b, s1, Some(u1)).st.boardDocs
  {
    var a := HandleUpdate(st, s1, Some(u1)).st;
    var b := HandleUpdate(st, s2, Some(u2)).st;
    if s1 in st.clientConnection && s2 in st.clientConnection {
      var b1 := st.conns[st.clientConnection[s1]].boardId;
      var b2 := st.conns[st.clientConnection[s2]].boardId;
      assert a == Merge(st, b1, u1);
      assert b == Merge(st, b2, u2);
      assert HandleUpdate(a, s2, Some(u2)).st == Merge(a, b2, u2);
      assert HandleUpdate(b, s1, Some(u1)).st == Merge(b, b1, u1);
      MergeCommute(st, b1, u1, b2, u2);
    }
  }

  lemma MergeCommute(st: Server, b1: BoardId, u1: Update, b2: BoardId, u2: Update)
    requires b1 in st.boardDocs && b2 in st.boardDocs
    ensures Merge(Merge(st, b1, u1), b2, u2).boardDocs == Merge(Merge(st, b2, u2), b1, u1).boardDocs
  {
    if b1 == b2 {
      MergeLaws(st.boardDocs[b1], u1, u2);
    }
  }

  // ---------------------------------------------------------------------------
  // Stored blobs
  // ---------------------------------------------------------------------------

  /** Each save overwrites the board's blob with the last change alone. After
      two deltas that both change the document, the blob holds only what the
      second added; a server started over that storage loads none of the
      earlier document and none of the first delta. */
  lemma StoredBlobIsTheLastChange(st: Server, s: SocketId, u1: Update, u2: Update, pick: PaletteIndex)
    requires Valid(st) && s in st.seen && s in st.clientConnection
    requires BoardOf(st, s) in st.persisted
    requires !(u2 <= ApplyUpdate(st.boardDocs[BoardOf(st, s)], u1))
    ensures var b := BoardOf(st, s);
      var r := Run(st, [UpdateFrom(s, u1, pick), UpdateFrom(s, u2, pick)]);
      && b in r.st.boardDocs && b in r.st.persisted
      && r.st.boardDocs[b] == ApplyUpdate(ApplyUpdate(st.boardDocs[b], u1), u2)
      && r.st.persisted[b] == Some(Encoded(Change(ApplyUpdate(st.boardDocs[b], u1), u2)))
      && (forall o :: o in st.boardDocs[b] || o in u1 ==> o !in LoadedDoc(r.st.persisted, b))
  {
    var b := BoardOf(st, s);
    var e1 := UpdateFrom(s, u1, pick);
    var e2 := UpdateFrom(s, u2, pick);
    RunTwo(st, e1, e2);
    StepUpdate(st, s, u1, pick);
    var a := HandleUpdate(st, s, Some(u1)).st;
    assert a == Merge(st, b, u1);
    StepUpdate(a, s, u2, pick);
    assert HandleUpdate(a, s, Some(u2)).st == Merge(a, b, u2);
  }

  /** Running two events is stepping twice. */
  lemma RunTwo(st: Server, e1: Event, e2: Event)
    requires Valid(st)
    ensures Run(st, [e1, e2]).st == Step(Step(st, e1).st, e2).st
  {
    assert [e1, e2][1..] == [e2];
    assert [e2][1..] == [];
  }

  // ---------------------------------------------------------------------------
  // Leaving
  // ---------------------------------------------------------------------------

  /** `error` followed by `close` on one socket runs the disconnect handler
      twice: the second run changes nothing, and every open peer that heard
      `user-left` the first time hears it again. */
  lemma ErrorThenCloseAnnouncesLeavingTwice(st: Server, s: SocketId)
    requires Valid(st) && s in st.clientConnection
    ensures var c := st.clientConnection[s];
      var m := UserLeftMsg(st.conns[c].userId, st.conns[c].userName);
      var r1 := Step(st, Errored(s));
      var r2 := Step(r1.st, Closed(s));
      && c !in Members(r1.st, BoardOf(st, s))
      && r2.st == r1.st
      && (forall p :: multiset(r2.out)[Push(p, m)] == multiset(r1.out)[Push(p, m)])
      && (forall p :: p in Members(r1.st, BoardOf(st, s)) && IsOpen(r1.st, p) ==>
            multiset(r1.out + r2.out)[Push(p, m)] == 2)
  {
    var closed := CloseSocket(st, s);
    StepLeave(st, s);
    var r1 := HandleDisconnect(closed, s);
    assert r1.st.open == closed.open;
    assert CloseSocket(r1.st, s) == r1.st;
    StepLeave(r1.st, s);
    DisconnectTwice(closed, s);
  }

  /** The disconnect handler run a second time for a closed socket */
  lemma DisconnectTwice(st: Server, s: SocketId)
    requires Valid(st) && s in st.clientConnection && s !in st.open
    ensures var c := st.clientConnection[s];
      var b := st.conns[c].boardId;
      var m := UserLeftMsg(st.conns[c].userId, st.conns[c].userName);
      var r1 := HandleDisconnect(st, s);
      var r2 := HandleDisconnect(r1.st, s);
      && c !in Members(r1.st, b)
      && r2.st == r1.st
      && (forall p :: multiset(r2.out)[Push(p, m)] == multiset(r1.out)[Push(p, m)])
      && (forall p :: p in Members(r1.st, b) && IsOpen(r1.st, p) ==>
            multiset(r1.out + r2.out)[Push(p, m)] == 2)
  {
    var c := st.clientConnection[s];
    var b := st.conns[c].boardId;
    var m := UserLeftMsg(st.conns[c].userId, st.conns[c].userName);
    var r1 := HandleDisconnect(st, s);
    assert LeftBoard(st, c, r1);
    assert r1.st.conns == st.conns && r1.st.open == st.open && r1.st.clientConnection == st.clientConnection;
    var r2 := HandleDisconnect(r1.st, s);
    assert LeftBoard(r1.st, c, r2);
    forall p ensures multiset(r2.out)[Push(p, m)] == multiset(r1.out)[Push(p, m)] {
      assert IsOpen(r1.st, p) == IsOpen(st, p);
    }
    forall p | p in Members(r1.st, b) && IsOpen(r1.st, p)
      ensures multiset(r1.out + r2.out)[Push(p, m)] == 2
    {
      assert IsOpen(r1.st, p) == IsOpen(st, p);
    }
  }

  /** A join registers the joiner's connection and removes no one. */
  lemma JoinKeepsMembers(st: Server, s: SocketId, b: BoardId, userId: Value, userName: Value,
                         pick: PaletteIndex)
    requires Valid(st) && s in st.seen && b != ""
    ensures var r := HandleJoin(st, s, Some(b), userId, userName, pick);
      && st.nextConn in Members(r.st, b)
      && s in r.st.clientConnection && r.st.clientConnection[s] == st.nextConn
      && r.st.seen == st.seen
      && forall b', x :: x in Members(st, b') ==> x in Members(r.st, b')
  {
    var r := HandleJoin(st, s, Some(b), userId, userName, pick);
    assert JoinedBoard(st, s, b, userId, userName, pick, r);
    assert Registered(st, s, b, NewConn(s, b, userId, userName, pick), r.st);
    assert Members(r.st, b) == Members(st, b) + [st.nextConn];
  }

  /** A disconnect removes no connection but the socket's own. */
  lemma DisconnectKeepsOthers(st: Server, s: SocketId, b: BoardId, x: ConnId)
    requires Valid(st) && x in Members(st, b)
    requires s in st.clientConnection ==> x != st.clientConnection[s]
    ensures x in Members(HandleDisconnect(st, s).st, b)
  {
    if s in st.clientConnection {
      var c := st.clientConnection[s];
      assert LeftBoard(st, c, HandleDisconnect(st, s));
    }
  }

  /** A joiner is told about every connection already on the board. */
  lemma JoinListsEarlierMembers(st: Server, s: SocketId, b: BoardId, userId: Value, userName: Value,
                                pick: PaletteIndex, x: ConnId)
    requires Valid(st) && s in st.seen && b != "" && x in Members(st, b)
    ensures var r := HandleJoin(st, s, Some(b), userId, userName, pick);
      && x in st.conns
      && |r.out| >= 2 && r.out[|r.out| - 1].msg.ActiveUsersMsg?
      && PresenceOf(st, x) in r.out[|r.out| - 1].msg.users
  {
    var r := HandleJoin(st, s, Some(b), userId, userName, pick);
    assert JoinedBoard(st, s, b, userId, userName, pick, r);
    MembersRegistered(st, b);
    var users := Presences(st, Members(st, b));
    assert r.out[|r.out| - 1] == Reply(s, ActiveUsersMsg(users));
    var i :| 0 <= i < |Members(st, b)| && Members(st, b)[i] == x;
    assert users[i] == PresenceOf(st, x);
  }

  /** A second join on one socket leaves the first connection registered on
      its board after the socket closes, while the second one is removed.
      Every later joiner of that board is then told about the stale
      connection (`JoinerHearsOfEveryMember`). */
  lemma RejoinLeavesStaleConnection(st: Server, s: SocketId, b1: BoardId, b2: BoardId,
                                    userId: Value, userName: Value, pick: PaletteIndex)
    requires Valid(st) && s in st.seen && b1 != "" && b2 != ""
    ensures var stale := st.nextConn;
      var r1 := Step(st, JoinFrom(s, b1, userId, userName, pick));
      var r2 := Step(r1.st, JoinFrom(s, b2, userId, userName, pick));
      var r3 := Step(r2.st, Closed(s));
      && stale in Members(r3.st, b1) && stale in r3.st.conns && !IsOpen(r3.st, stale)
      && s in r3.st.clientConnection && r3.st.clientConnection[s] != stale
      && r3.st.clientConnection[s] !in Members(r3.st, b2)
  {
    var stale := st.nextConn;
    StepJoin(st, s, b1, userId, userName, pick);
    var r1 := HandleJoin(st, s, Some(b1), userId, userName, pick);
    JoinKeepsMembers(st, s, b1, userId, userName, pick);
    StepJoin(r1.st, s, b2, userId, userName, pick);
    var r2 := HandleJoin(r1.st, s, Some(b2), userId, userName, pick);
    JoinKeepsMembers(r1.st, s, b2, userId, userName, pick);
    assert stale in r1.st.conns by { MembersRegistered(r1.st, b1); }
    var second := r1.st.nextConn;
    assert second != stale;
    StepLeave(r2.st, s);
    var closed := CloseSocket(r2.st, s);
    var r3 := HandleDisconnect(closed, s);
    DisconnectKeepsOthers(closed, s, b1, stale);
    assert LeftBoard(closed, second, r3);
    assert closed.conns[second].boardId == b2 by {
      MembersRegistered(r2.st, b2);
    }
    assert stale in closed.conns by { MembersRegistered(closed, b1); }
    assert closed.conns[stale].socket == s by {
      assert Registered(st, s, b1, NewConn(s, b1, userId, userName, pick), r1.st);
      assert Registered(r1.st, s, b2, NewConn(s, b2, userId, userName, pick), r2.st);
    }
  }

  /** Two joins of one board from one open socket: the first connection stays
      registered and open on that socket, the socket's variable names the
      second, and the second join's announcement reaches the first. */
  lemma RejoinSameBoard(st: Server, s: SocketId, b: BoardId, userId: Value, userName: Value,
                        pick: PaletteIndex)
    requires Valid(st) && s in st.open && b != ""
    ensures var stale := st.nextConn;
      var conn := NewConn(s, b, userId, userName, pick);
      var r1 := HandleJoin(st, s, Some(b), userId, userName, pick);
      var r2 := HandleJoin(r1.st, s, Some(b), userId, userName, pick);
      && s in r1.st.seen
      && stale in Members(r2.st, b) && IsOpen(r2.st, stale) && r2.st.conns[stale].socket == s
      && s in r2.st.clientConnection && r2.st.clientConnection[s] != stale
      && r2.st.conns[r2.st.clientConnection[s]].boardId == b
      && multiset(r2.out)[Push(stale, UserJoinedMsg(userId, conn.userName, conn.color))] == 1
  {
    var stale := st.nextConn;
    var conn := NewConn(s, b, userId, userName, pick);
    var r1 := HandleJoin(st, s, Some(b), userId, userName, pick);
    assert JoinedBoard(st, s, b, userId, userName, pick, r1);
    assert Registered(st, s, b, conn, r1.st);
    JoinKeepsMembers(st, s, b, userId, userName, pick);
    var r2 := HandleJoin(r1.st, s, Some(b), userId, userName, pick);
    assert JoinedBoard(r1.st, s, b, userId, userName, pick, r2);
    assert Registered(r1.st, s, b, conn, r2.st);
    JoinKeepsMembers(r1.st, s, b, userId, userName, pick);
    assert IsOpen(r1.st, stale);
  }

  /** The sender is excluded by connection, not by socket. A socket that joins
      the same board twice keeps its first connection in the board's set, so
      it is told of its own second join and hears back its own deltas. */
  lemma RejoinedSocketHearsItself(st: Server, s: SocketId, b: BoardId, userId: Value, userName: Value,
                                  pick: PaletteIndex, u: Update)
    requires Valid(st) && s in st.open && b != ""
    ensures var stale := st.nextConn;
      var conn := NewConn(s, b, userId, userName, pick);
      var r1 := Step(st, JoinFrom(s, b, userId, userName, pick));
      var r2 := Step(r1.st, JoinFrom(s, b, userId, userName, pick));
      var r3 := Step(r2.st, UpdateFrom(s, u, pick));
      && stale in r2.st.conns && r2.st.conns[stale].socket == s
      && s in r2.st.clientConnection && r2.st.clientConnection[s] != stale
      && multiset(r2.out)[Push(stale, UserJoinedMsg(userId, conn.userName, conn.color))] == 1
      && multiset(r3.out)[Push(stale, UpdateMsg(u))] == 1
  {
    StepJoin(st, s, b, userId, userName, pick);
    var r1 := HandleJoin(st, s, Some(b), userId, userName, pick);
    RejoinSameBoard(st, s, b, userId, userName, pick);
    StepJoin(r1.st, s, b, userId, userName, pick);
    var r2 := HandleJoin(r1.st, s, Some(b), userId, userName, pick);
    UpdateKeepsPeersInSync(r2.st, s, u, pick, st.nextConn, r2.st.boardDocs[b]);
  }

  /** Whoever joins a board is told about every connection registered on it,
      whether or not its socket is still open. */
  lemma JoinerHearsOfEveryMember(st: Server, s: SocketId, b: BoardId, userId: Value, userName: Value,
                                 pick: PaletteIndex, x: ConnId)
    requires Valid(st) && s in st.seen && b != "" && x in Members(st, b)
    ensures var r := Step(st, JoinFrom(s, b, userId, userName, pick));
      && x in st.conns
      && |r.out| >= 2 && r.out[|r.out| - 1].msg.ActiveUsersMsg?
      && PresenceOf(st, x) in r.out[|r.out| - 1].msg.users
  {
    StepJoin(st, s, b, userId, userName, pick);
    JoinListsEarlierMembers(st, s, b, userId, userName, pick, x);
  }

  /** A board's document outlives its last connection: when the only
      connection leaves, the next joiner is sent the same document, not the
      stored blob. */
  lemma DocumentOutlivesItsConnections(st: Server, s: SocketId, s': SocketId,
                                       userId: Value, userName: Value, pick: PaletteIndex)
    requires Valid(st) && s in st.clientConnection && s' in st.seen
    requires Members(st, BoardOf(st, s)) == [st.clientConnection[s]]
    ensures var b := BoardOf(st, s);
      var r1 := Step(st, Closed(s));
      var r2 := Step(r1.st, JoinFrom(s', b, userId, userName, pick));
      && b !in r1.st.boardConnections
      && r1.st.boardDocs == st.boardDocs
      && (b != "" ==> |r2.out| > 0 && r2.out[0] == Reply(s', SyncMsg(EncodeStateAsUpdate(st.boardDocs[b]))))
  {
    var b := BoardOf(st, s);
    var c := st.clientConnection[s];
    var closed := CloseSocket(st, s);
    StepLeave(st, s);
    var r1 := HandleDisconnect(closed, s);
    assert LeftBoard(closed, c, r1);
    if b != "" {
      StepJoin(r1.st, s', b, userId, userName, pick);
      var r2 := HandleJoin(r1.st, s', Some(b), userId, userName, pick);
      assert JoinedBoard(r1.st, s', b, userId, userName, pick, r2);
    }
  }
}

=== FILE: js.dfy ===
/** The slice of JavaScript semantics the handlers depend on: the values that
    `JSON.parse` produces, truthiness (`!x`, `x || y`), `typeof`,
    `Array.isArray`, property reads, and the whitespace class shared by the
    regular-expression escape `\s` and `String.prototype.trim`. */
module Js {

  newtype Byte = b: int | 0 <= b < 256

  type Bytes = seq<Byte>

  /** A JavaScript value as received in a request or message body. Numbers are
      integers here (see README); objects are finite maps from property names. */
  datatype Value =
    | Undefined
    | Null
    | Bool(b: bool)
    | Num(n: int)
    | Str(s: string)
    | Arr(items: seq<Value>)
    | Obj(fields: map<string, Value>)

  /** JavaScript truthiness: `undefined`, `null`, `false`, `0` and `""` are falsy. */
  predicate Truthy(v: Value) {
    match v
    case Undefined => false
    case Null => false
    case Bool(b) => b
    case Num(n) => n != 0
    case Str(s) => s != ""
    case Arr(_) => true
    case Obj(_) => true
  }

  /** The `typeof` operator; note that `typeof null` and `typeof []` are "object". */
  function TypeOf(v: Value): string {
    match v
    case Undefined => "undefined"
    case Null => "object"
    case Bool(_) => "boolean"
    case Num(_) => "number"
    case Str(_) => "string"
    case Arr(_) => "object"
    case Obj(_) => "object"
  }

  /** `Array.isArray` */
  predicate IsArray(v: Value) {
    v.Arr?
  }

  /** `x || fallback` */
  function Or(x: Value, fallback: Value): (r: Value)
    ensures Truthy(x) ==> r == x
    ensures !Truthy(x) ==> r == fallback
  {
    if Truthy(x) then x else fallback
  }

  /** Property read `v[key]` for the own, data-carrying properties this model
      reads (`elements`, `pages`); arrays, strings and primitives have none of
      those, and reading a property of `null`/`undefined` is not modelled here. */
  function Get(v: Value, key: string): Value {
    match v
    case Obj(fields) => if key in fields then fields[key] else Undefined
    case _ => Undefined
  }

  /** The characters matched by `\s` and stripped by `trim()` (ECMAScript
      WhiteSpace and LineTerminator code points). */
  predicate IsWhitespace(c: char) {
    || ('\U{9}' <= c <= '\U{D}')
    || c == ' ' || c == '\U{A0}' || c == '\U{1680}'
    || ('\U{2000}' <= c <= '\U{200A}')
    || c == '\U{2028}' || c == '\U{2029}' || c == '\U{202F}' || c == '\U{205F}'
    || c == '\U{3000}' || c == '\U{FEFF}'
  }
}

=== FILE: project_controller.dfy ===
/** The project-data endpoints: save, load and auto-save of a board's stored
    document, and the version history (create, list, restore). Each handler is
    a pure function from the database and the request to a status code, the
    new database and, where the endpoint returns one, a response body. */
module ProjectController {
  import opened Wrappers
  import opened Js
  import opened Store
  import Validators

  const Ok := 200
  const Created := 201
  const BadRequest := 400
  const Unauthorized := 401
  const Forbidden := 403
  const NotFound := 404
  const ServerError := 500

  datatype Response<T> = Response(status: int, db: Db, body: Option<T>)

  /** The database with board `boardId`'s stored blob replaced; nothing else changes */
  function WithState(db: Db, boardId: BoardId, state: Bytes): (db': Db)
    requires boardId in db.boards
    ensures db'.boards.Keys == db.boards.Keys
    ensures db'.boards[boardId].yDocState == Some(state)
    ensures forall b :: b in db.boards && b != boardId ==> db'.boards[b] == db.boards[b]
    ensures db'.boards[boardId] == db.boards[boardId].(yDocState := Some(state))
    ensures db'.versions == db.versions && db'.assets == db.assets
    ensures db'.objects == db.objects && db'.nextId == db.nextId
  {
    db.(boards := db.boards[boardId := db.boards[boardId].(yDocState := Some(state))])
  }

  /** `saveProjectData`. `stringify` stands for `Buffer.from(JSON.stringify(_))`. */
  function SaveProjectData(db: Db, boardId: BoardId, userId: Option<UserId>,
                           projectData: Value, stringify: Value -> Bytes): (r: Response<()>)
    ensures r.status == Unauthorized <==> !SignedIn(userId)
    ensures r.status == BadRequest <==> SignedIn(userId) && !Truthy(projectData)
    ensures r.status == NotFound <==>
      SignedIn(userId) && Truthy(projectData) && boardId !in db.boards
    ensures r.status == Forbidden <==>
      SignedIn(userId) && Truthy(projectData) && boardId in db.boards &&
      !CanEdit(db.boards[boardId], userId)
    ensures r.status == Ok <==>
      SignedIn(userId) && Truthy(projectData) && boardId in db.boards &&
      CanEdit(db.boards[boardId], userId)
    ensures r.status != Ok ==> r.db == db
    ensures r.status == Ok ==>
      boardId in db.boards && r.db == WithState(db, boardId, stringify(projectData))
  {
    if !SignedIn(userId) then Response(Unauthorized, db, None)
    else if !Truthy(projectData) then Response(BadRequest, db, None)
    else if boardId !in db.boards then Response(NotFound, db, None)
    else if !CanEdit(db.boards[boardId], userId) then Response(Forbidden, db, None)
    else Response(Ok, WithState(db, boardId, stringify(projectData)), Some(()))
  }

  /** The document `loadProjectData` falls back to when the stored bytes do not parse */
  const EmptyProject: Value := Obj(map["elements" := Arr([]), "pages" := Arr([])])

  /** The `projectData` field of a load response: `null` without a stored blob,
      the parsed blob, or the empty project when parsing fails. `parse` stands
      for `JSON.parse(buffer.toString())`, `None` meaning that it throws. */
  function StoredProjectData(state: Option<Bytes>, parse: Bytes -> Option<Value>): (v: Value)
    ensures state.None? ==> v == Null
    ensures state.Some? && parse(state.value).Some? ==> v == parse(state.value).value
    ensures state.Some? && parse(state.value).None? ==> v == EmptyProject
  {
    match state
    case None => Null
    case Some(bytes) =>
      match parse(bytes)
      case Some(v) => v
      case None => EmptyProject
  }

  /** The fallback document is itself valid project data. */
  lemma EmptyProjectIsValid()
    ensures Validators.ValidateProjectData(EmptyProject)
  {
    assert "elements" in EmptyProject.fields;
  }

  /** `loadProjectData`: never changes the database. */
  function LoadProjectData(db: Db, boardId: BoardId, userId: Option<UserId>,
                           parse: Bytes -> Option<Value>): (r: Response<Value>)
    ensures r.db == db
    ensures r.status == NotFound <==> boardId !in db.boards
    ensures r.status == Forbidden <==> boardId in db.boards && !CanView(db.boards[boardId], userId)
    ensures r.status == Ok <==> boardId in db.boards && CanView(db.boards[boardId], userId)
    ensures r.status == Ok ==> r.body == Some(StoredProjectData(db.boards[boardId].yDocState, parse))
  {
    if boardId !in db.boards then Response(NotFound, db, None)
    else
      var board := db.boards[boardId];
      if !CanView(board, userId) then Response(Forbidden, db, None)
      else Response(Ok, db, Some(StoredProjectData(board.yDocState, parse)))
  }

  /** `autoSaveProjectData`. Unlike saving it does not reject a missing
      `projectData`: `JSON.stringify(undefined)` is `undefined`, `Buffer.from`
      throws on it, and the handler answers 500 after the access checks. */
  function AutoSaveProjectData(db: Db, boardId: BoardId, userId: Option<UserId>,
                               projectData: Value, stringify: Value -> Bytes): (r: Response<()>)
    ensures r.status == Unauthorized <==> !SignedIn(userId)
    ensures r.status == NotFound <==> SignedIn(userId) && boardId !in db.boards
    ensures r.status == Forbidden <==>
      SignedIn(userId) && boardId in db.boards && !CanEdit(db.boards[boardId], userId)
    ensures r.status == ServerError <==>
      SignedIn(userId) && boardId in db.boards && CanEdit(db.boards[boardId], userId) &&
      projectData == Undefined
    ensures r.status == Ok <==>
      SignedIn(userId) && boardId in db.boards && CanEdit(db.boards[boardId], userId) &&
      projectData != Undefined
    ensures r.status != Ok ==> r.db == db
    ensures r.status == Ok ==>
      boardId in db.boards && r.db == WithState(db, boardId, stringify(projectData))
  {
    if !SignedIn(userId) then Response(Unauthorized, db, None)
    else if boardId !in db.boards then Response(NotFound, db, None)
    else if !CanEdit(db.boards[boardId], userId) then Response(Forbidden, db, None)
    else if projectData == Undefined then Response(ServerError, db, None)
    else Response(Ok, WithState(db, boardId, stringify(projectData)), Some(()))
  }

  /** `createProjectVersion`. `now` is the ISO timestamp used in the default
      name; the new version's id is `db.nextId`. */
  function CreateProjectVersion(db: Db, boardId: BoardId, userId: Option<UserId>,
                                versionName: Option<string>, thumbnail: Option<string>,
                                now: string): (r: Response<nat>)
    ensures r.status == Unauthorized <==> !SignedIn(userId)
    ensures r.status == NotFound <==> SignedIn(userId) && boardId !in db.boards
    ensures r.status == Forbidden <==>
      SignedIn(userId) && boardId in db.boards && !IsOwner(db.boards[boardId], userId)
    ensures r.status == BadRequest <==>
      SignedIn(userId) && boardId in db.boards && IsOwner(db.boards[boardId], userId) &&
      db.boards[boardId].yDocState.None?
    ensures r.status == Created <==>
      SignedIn(userId) && boardId in db.boards && IsOwner(db.boards[boardId], userId) &&
      db.boards[boardId].yDocState.Some?
    ensures r.status != Created ==> r.db == db
    ensures r.status == Created ==>
      && boardId in db.boards && db.boards[boardId].yDocState.Some?
      && r.body == Some(db.nextId)
      && r.db.boards == db.boards && r.db.assets == db.assets && r.db.objects == db.objects
      && r.db.nextId == db.nextId + 1
      && r.db.versions.Keys == db.versions.Keys + {db.nextId}
      && (forall i :: i in db.versions && i != db.nextId ==> r.db.versions[i] == db.versions[i])
      && var v := r.db.versions[db.nextId];
         && v.boardId == boardId
         && v.yDocState == db.boards[boardId].yDocState.value
         && (versionName.Some? && versionName.value != "" ==> v.versionName == versionName.value)
         && (versionName.None? || versionName.value == "" ==> v.versionName == "Version " + now)
         && (thumbnail.Some? && thumbnail.value != "" ==> v.thumbnail == thumbnail)
         && (thumbnail.None? || thumbnail.value == "" ==> v.thumbnail == db.boards[boardId].thumbnail)
  {
    if !SignedIn(userId) then Response(Unauthorized, db, None)
    else if boardId !in db.boards then Response(NotFound, db, None)
    else
      var board := db.boards[boardId];
      if !IsOwner(board, userId) then Response(Forbidden, db, None)
      else if board.yDocState.None? then Response(BadRequest, db, None)
      else
        var name := if versionName.Some? && versionName.value != "" then versionName.value
                    else "Version " + now;
        var thumb := if thumbnail.Some? && thumbnail.value != "" then thumbnail else board.thumbnail;
        var v := Version(boardId, name, board.yDocState.value, thumb);
        Response(Created, db.(versions := db.versions[db.nextId := v], nextId := db.nextId + 1),
                 Some(db.nextId))
  }

  /** The ids of the versions saved for `boardId` */
  function VersionsOf(db: Db, boardId: BoardId): set<nat>
  {
    set i | i in db.versions && db.versions[i].boardId == boardId
  }

  /** `getProjectVersions`: there is no separate 401; a missing user simply
      fails the access check. */
  function GetProjectVersions(db: Db, boardId: BoardId, userId: Option<UserId>): (r: Response<set<nat>>)
    ensures r.db == db
    ensures r.status == NotFound <==> boardId !in db.boards
    ensures r.status == Forbidden <==>
      boardId in db.boards && !CanSeeHistory(db.boards[boardId], userId)
    ensures r.status == Ok <==> boardId in db.boards && CanSeeHistory(db.boards[boardId], userId)
    ensures r.status == Ok ==>
      r.body.Some? &&
      forall i :: i in r.body.value <==> i in db.versions && db.versions[i].boardId == boardId
  {
    if boardId !in db.boards then Response(NotFound, db, None)
    else if !CanSeeHistory(db.boards[boardId], userId) then Response(Forbidden, db, None)
    else Response(Ok, db, Some(VersionsOf(db, boardId)))
  }

  /** `restoreProjectVersion` */
  function RestoreProjectVersion(db: Db, boardId: BoardId, userId: Option<UserId>,
                                 versionId: nat): (r: Response<()>)
    ensures r.status == Unauthorized <==> !SignedIn(userId)
    ensures r.status == NotFound <==>
      SignedIn(userId) &&
      (boardId !in db.boards ||
       (IsOwner(db.boards[boardId], userId) &&
        (versionId !in db.versions || db.versions[versionId].boardId != boardId)))
    ensures r.status == Forbidden <==>
      SignedIn(userId) && boardId in db.boards && !IsOwner(db.boards[boardId], userId)
    ensures r.status == Ok <==>
      && SignedIn(userId) && boardId in db.boards && IsOwner(db.boards[boardId], userId)
      && versionId in db.versions && db.versions[versionId].boardId == boardId
    ensures r.status != Ok ==> r.db == db
    ensures r.status == Ok ==>
      && boardId in db.boards && versionId in db.versions
      && db.versions[versionId].boardId == boardId
      && r.db == WithState(db, boardId, db.versions[versionId].yDocState)
  {
    if !SignedIn(userId) then Response(Unauthorized, db, None)
    else if boardId !in db.boards then Response(NotFound, db, None)
    else if !IsOwner(db.boards[boardId], userId) then Response(Forbidden, db, None)
    else if versionId !in db.versions || db.versions[versionId].boardId != boardId then
      Response(NotFound, db, None)
    else Response(Ok, WithState(db, boardId, db.versions[versionId].yDocState), Some(()))
  }

  // ---------------------------------------------------------------------------
  // Properties relating several endpoints
  // ---------------------------------------------------------------------------

  /** Whoever saved successfully can load what they saved, provided the JSON
      encoding of that value parses back to it. */
  lemma SaveThenLoad(db: Db, boardId: BoardId, userId: Option<UserId>, projectData: Value,
                     stringify: Value -> Bytes, parse: Bytes -> Option<Value>)
    requires SaveProjectData(db, boardId, userId, projectData, stringify).status == Ok
    requires parse(stringify(projectData)) == Some(projectData)
    ensures var saved := SaveProjectData(db, boardId, userId, projectData, stringify).db;
      LoadProjectData(saved, boardId, userId, parse) == Response(Ok, saved, Some(projectData))
  {
    AccessNesting(db.boards[boardId], userId);
  }

  /** Whoever auto-saved successfully can load what they saved, provided the
      JSON encoding of that value parses back to it. */
  lemma AutoSaveThenLoad(db: Db, boardId: BoardId, userId: Option<UserId>, projectData: Value,
                         stringify: Value -> Bytes, parse: Bytes -> Option<Value>)
    requires AutoSaveProjectData(db, boardId, userId, projectData, stringify).status == Ok
    requires parse(stringify(projectData)) == Some(projectData)
    ensures var saved := AutoSaveProjectData(db, boardId, userId, projectData, stringify).db;
      LoadProjectData(saved, boardId, userId, parse) == Response(Ok, saved, Some(projectData))
  {
    AccessNesting(db.boards[boardId], userId);
  }

  /** Creating a version adds exactly the new id to the board's history and
      leaves every other board's history alone. */
  lemma CreateAddsOneVersion(db: Db, boardId: BoardId, userId: Option<UserId>,
                             versionName: Option<string>, thumbnail: Option<string>, now: string,
                             other: BoardId)
    requires FreshIds(db)
    requires CreateProjectVersion(db, boardId, userId, versionName, thumbnail, now).status == Created
    requires other != boardId
    ensures var after := CreateProjectVersion(db, boardId, userId, versionName, thumbnail, now).db;
      && VersionsOf(after, boardId) == VersionsOf(db, boardId) + {db.nextId}
      && db.nextId !in VersionsOf(db, boardId)
      && VersionsOf(after, other) == VersionsOf(db, other)
  {
  }

  /** A version restores exactly the state the board had when the version was
      created, whatever was saved in between, as long as the board keeps its
      owner and the version table is untouched. */
  lemma CreateThenRestore(db: Db, boardId: BoardId, userId: Option<UserId>,
                          versionName: Option<string>, thumbnail: Option<string>, now: string,
                          later: Db)
    requires CreateProjectVersion(db, boardId, userId, versionName, thumbnail, now).status == Created
    requires later.versions == CreateProjectVersion(db, boardId, userId, versionName, thumbnail, now).db.versions
    requires boardId in later.boards && later.boards[boardId].ownerId == db.boards[boardId].ownerId
    ensures var restored := RestoreProjectVersion(later, boardId, userId, db.nextId);
      && restored.status == Ok
      && restored.db.boards[boardId].yDocState == db.boards[boardId].yDocState
  {
  }

  /** A freshly created version shows up in the owner's version list. */
  lemma CreatedVersionIsListed(db: Db, boardId: BoardId, userId: Option<UserId>,
                               versionName: Option<string>, thumbnail: Option<string>, now: string)
    requires CreateProjectVersion(db, boardId, userId, versionName, thumbnail, now).status == Created
    ensures var after := CreateProjectVersion(db, boardId, userId, versionName, thumbnail, now).db;
      && GetProjectVersions(after, boardId, userId).status == Ok
      && db.nextId in GetProjectVersions(after, boardId, userId).body.value
  {
  }

  /** A request without a user id changes nothing: every mutating project
      endpoint answers 401, and only a public board can be loaded. */
  lemma AnonymousRequests(db: Db, boardId: BoardId, projectData: Value, stringify: Value -> Bytes,
                          parse: Bytes -> Option<Value>, versionId: nat,
                          versionName: Option<string>, thumbnail: Option<string>, now: string)
    ensures SaveProjectData(db, boardId, None, projectData, stringify) == Response(Unauthorized, db, None)
    ensures AutoSaveProjectData(db, boardId, None, projectData, stringify) == Response(Unauthorized, db, None)
    ensures CreateProjectVersion(db, boardId, None, versionName, thumbnail, now) ==
      Response(Unauthorized, db, None)
    ensures RestoreProjectVersion(db, boardId, None, versionId) == Response(Unauthorized, db, None)
    ensures GetProjectVersions(db, boardId, None).status != Ok
    ensures LoadProjectData(db, boardId, None, parse).status == Ok <==>
      boardId in db.boards && db.boards[boardId].isPublic
  {
  }
}

=== FILE: store.dfy ===
/** The database rows the HTTP controllers read and write (boards with their
    members, saved versions, asset records), the storage bucket, and the
    access rules the controllers evaluate against a board. */
module Store {
  import opened Wrappers
  import opened Js

  type UserId = string
  type BoardId = string

  /** A row of the board-members relation */
  datatype Member = Member(userId: UserId, role: string)

  datatype Board = Board(
    ownerId: UserId,
    isPublic: bool,
    members: seq<Member>,
    yDocState: Option<Bytes>,   // the stored document blob, when there is one
    thumbnail: Option<string>)

  datatype Version = Version(
    boardId: BoardId,
    versionName: string,
    yDocState: Bytes,
    thumbnail: Option<string>)

  datatype Asset = Asset(
    boardId: BoardId,
    fileName: string,
    fileType: string,
    fileSize: int,
    url: string,
    storageRef: string)

  /** Everything the controllers can observe or change. Version and asset ids
      are drawn from `nextId`, standing in for the database's id generator;
      `objects` is the storage bucket, keyed by object path. */
  datatype Db = Db(
    boards: map<BoardId, Board>,
    versions: map<nat, Version>,
    assets: map<nat, Asset>,
    objects: map<string, Bytes>,
    nextId: nat)

  /** The generator has not yet handed out `nextId` */
  predicate FreshIds(db: Db) {
    && (forall i :: i in db.versions ==> i < db.nextId)
    && (forall i :: i in db.assets ==> i < db.nextId)
  }

  // ---------------------------------------------------------------------------
  // Access rules. `userId` is `req.user?.dbUserId`, absent only when a handler
  // is called without the authentication middleware.
  // ---------------------------------------------------------------------------

  /** The `!userId` guard passes: an id is present and is not the empty string */
  predicate SignedIn(userId: Option<UserId>) {
    userId.Some? && userId.value != ""
  }

  /** `board.ownerId === userId` */
  predicate IsOwner(board: Board, userId: Option<UserId>) {
    userId.Some? && board.ownerId == userId.value
  }

  /** `board.members.some(m => m.userId === userId)` */
  predicate IsMember(board: Board, userId: Option<UserId>) {
    userId.Some? &&
    exists i :: 0 <= i < |board.members| && board.members[i].userId == userId.value
  }

  /** `board.members.some(m => m.userId === userId && m.role !== 'viewer')` */
  predicate IsEditor(board: Board, userId: Option<UserId>) {
    userId.Some? &&
    exists i :: 0 <= i < |board.members| &&
      board.members[i].userId == userId.value && board.members[i].role != "viewer"
  }

  /** Write access: saving, auto-saving, uploading and deleting assets */
  predicate CanEdit(board: Board, userId: Option<UserId>) {
    IsOwner(board, userId) || IsEditor(board, userId)
  }

  /** Read access: loading project data and listing assets */
  predicate CanView(board: Board, userId: Option<UserId>) {
    board.isPublic || IsOwner(board, userId) || (SignedIn(userId) && IsMember(board, userId))
  }

  /** Listing versions: like read access but without the public flag */
  predicate CanSeeHistory(board: Board, userId: Option<UserId>) {
    IsOwner(board, userId) || (SignedIn(userId) && IsMember(board, userId))
  }

  /** For a signed-in user the rules are nested: owner, then editor, then
      anyone who may see the history, then anyone who may view. */
  lemma AccessNesting(board: Board, userId: Option<UserId>)
    requires SignedIn(userId)
    ensures IsOwner(board, userId) ==> CanEdit(board, userId)
    ensures CanEdit(board, userId) ==> CanSeeHistory(board, userId)
    ensures CanSeeHistory(board, userId) ==> CanView(board, userId)
  {
    if IsEditor(board, userId) {
      var i :| 0 <= i < |board.members| && board.members[i].userId == userId.value
                && board.members[i].role != "viewer";
      assert board.members[i].userId == userId.value;
    }
  }

  /** A signed-in member whose every membership row has role "viewer", and who
      does not own the board, may view and see the history but not edit. */
  lemma ViewerIsReadOnly(board: Board, userId: Option<UserId>)
    requires SignedIn(userId) && !IsOwner(board, userId) && IsMember(board, userId)
    requires forall i :: 0 <= i < |board.members| && board.members[i].userId == userId.value ==>
      board.members[i].role == "viewer"
    ensures CanView(board, userId) && CanSeeHistory(board, userId)
    ensures !CanEdit(board, userId)
  {
  }

  /** Without a user id only the public flag grants anything. */
  lemma AnonymousAccess(board: Board)
    ensures CanView(board, None) <==> board.isPublic
    ensures !CanEdit(board, None) && !CanSeeHistory(board, None)
  {
  }

  /** Editing and history listing never consult the public flag. */
  lemma PublicFlagOnlyGrantsViewing(board: Board, userId: Option<UserId>, isPublic: bool)
    ensures CanSeeHistory(board.(isPublic := isPublic), userId) == CanSeeHistory(board, userId)
    ensures CanEdit(board.(isPublic := isPublic), userId) == CanEdit(board, userId)
    ensures isPublic ==> CanView(board.(isPublic := isPublic), userId)
  {
  }
}

=== FILE: validators.dfy ===
/** The pure request validators: e-mail shape, board title, project-data shape,
    string sanitising, the upload MIME allow-list and the upload size limit. */
module Validators {
  import opened Js

  // ---------------------------------------------------------------------------
  // validateEmail: /^[^\s@]+@[^\s@]+\.[^\s@]+$/
  // ---------------------------------------------------------------------------

  /** One character of the class `[^\s@]` */
  predicate PartChar(c: char) {
    c != '@' && !IsWhitespace(c)
  }

  /** A match of `[^\s@]+` */
  predicate Part(t: string) {
    |t| > 0 && forall k :: 0 <= k < |t| ==> PartChar(t[k])
  }

  /** `s` matches the e-mail pattern with its `@` at index `at` and the literal
      `.` at index `dot`: three non-empty runs of `[^\s@]` around them. */
  predicate EmailSplit(s: string, at: int, dot: int) {
    && 0 <= at < dot < |s|
    && s[at] == '@' && s[dot] == '.'
    && Part(s[..at]) && Part(s[at + 1..dot]) && Part(s[dot + 1..])
  }

  /** The declarative reading of the e-mail regular expression. */
  ghost predicate EmailShape(s: string) {
    exists at, dot :: EmailSplit(s, at, dot)
  }

  /** Every character of a matching string is outside `\s`, and its only `@`
      is the one at `at`. */
  lemma EmailSplitChars(s: string, at: int, dot: int)
    requires EmailSplit(s, at, dot)
    ensures forall k :: 0 <= k < |s| ==> !IsWhitespace(s[k])
    ensures forall k :: 0 <= k < |s| && s[k] == '@' ==> k == at
  {
    forall k | 0 <= k < |s|
      ensures !IsWhitespace(s[k]) && (s[k] == '@' ==> k == at)
    {
      if k < at {
        assert s[k] == s[..at][k];
      } else if at < k < dot {
        assert s[k] == s[at + 1..dot][k - at - 1];
      } else if dot < k {
        assert s[k] == s[dot + 1..][k - dot - 1];
      }
    }
  }

  lemma NotEmailIfWhitespace(s: string, k: int)
    requires 0 <= k < |s| && IsWhitespace(s[k])
    ensures !EmailShape(s)
  {
    if at, dot :| EmailSplit(s, at, dot) {
      EmailSplitChars(s, at, dot);
    }
  }

  lemma NotEmailIfTwoAts(s: string, i: int, j: int)
    requires 0 <= i < j < |s| && s[i] == '@' && s[j] == '@'
    ensures !EmailShape(s)
  {
    if at, dot :| EmailSplit(s, at, dot) {
      EmailSplitChars(s, at, dot);
    }
  }

  lemma NotEmailIfLeadingAt(s: string)
    requires 0 < |s| && s[0] == '@'
    ensures !EmailShape(s)
  {
    if at, dot :| EmailSplit(s, at, dot) {
      EmailSplitChars(s, at, dot);
    }
  }

  /** If the only `@` is at `at`, a match needs a `.` somewhere in
      `[at + 2, |s| - 2]`. */
  lemma NotEmailIfNoHostDot(s: string, at: int, hi: int)
    requires 0 <= at < |s| && s[at] == '@'
    requires |s| - 1 <= hi <= |s|
    requires forall k :: at + 2 <= k < hi ==> s[k] != '.'
    ensures !EmailShape(s)
  {
    if at', dot :| EmailSplit(s, at', dot) {
      EmailSplitChars(s, at', dot);
    }
  }

  lemma NotEmailWithoutAt(s: string)
    requires forall k :: 0 <= k < |s| ==> s[k] != '@'
    ensures !EmailShape(s)
  {
  }

  /** What the scan knows when it ends in `Done` is a match. */
  lemma EmailFromScan(s: string, at: int, dot: int)
    requires 0 <= at && at + 2 <= dot < |s| - 1 && s[at] == '@' && s[dot] == '.'
    requires Part(s[..at])
    requires forall j :: at < j < |s| ==> PartChar(s[j])
    ensures EmailShape(s)
  {
    var host, ext := s[at + 1..dot], s[dot + 1..];
    assert Part(host) by {
      forall k | 0 <= k < |host| ensures PartChar(host[k]) {
        assert host[k] == s[at + 1 + k];
      }
    }
    assert Part(ext) by {
      forall k | 0 <= k < |ext| ensures PartChar(ext[k]) {
        assert ext[k] == s[dot + 1 + k];
      }
    }
    assert EmailSplit(s, at, dot);
  }

  datatype EmailState =
    | Start      // nothing read
    | Local      // one or more characters of the local part
    | AfterAt    // just read the `@`
    | Host       // host characters, no `.` at host position 1 or later yet
    | HostDot    // the last host character is such a `.`
    | Done       // such a `.` followed by at least one more character
    | Reject     // no extension of the input can match

  /** `validateEmail`, as a single left-to-right scan that decides the regular
      expression without backtracking. */
  method ValidateEmail(email: string) returns (ok: bool)
    ensures ok <==> EmailShape(email)
  {
    var st := Start;
    ghost var at := 0;
    ghost var dot := 0;
    var k := 0;
    while k < |email| && st != Reject
      invariant 0 <= k <= |email|
      invariant st == Start ==> k == 0
      invariant st == Local ==> Part(email[..k])
      invariant st in {AfterAt, Host, HostDot, Done} ==>
        && 0 <= at < k && email[at] == '@' && Part(email[..at])
        && forall j :: at < j < k ==> PartChar(email[j])
      invariant st == AfterAt ==> k == at + 1
      invariant st == Host ==> k >= at + 2 && forall j :: at + 2 <= j < k ==> email[j] != '.'
      invariant st == HostDot ==>
        k >= at + 3 && email[k - 1] == '.' && forall j :: at + 2 <= j < k - 1 ==> email[j] != '.'
      invariant st == Done ==> at + 2 <= dot < k - 1 && email[dot] == '.'
      invariant st == Reject ==> !EmailShape(email)
      decreases |email| - k
    {
      var c := email[k];
      if IsWhitespace(c) {
        NotEmailIfWhitespace(email, k);
        st := Reject;
      } else if c == '@' {
        match st {
          case Start =>
            NotEmailIfLeadingAt(email);
            st := Reject;
          case Local =>
            at := k;
            st := AfterAt;
          case _ =>
            NotEmailIfTwoAts(email, at, k);
            st := Reject;
        }
      } else {
        match st {
          case Start =>
            st := Local;
          case Local =>
            st := Local;
          case AfterAt =>
            st := Host;
          case Host =>
            if c == '.' {
              st := HostDot;
            }
          case HostDot =>
            dot := k - 1;
            st := Done;
          case Done =>
          case Reject =>
        }
      }
      if st == Local {
        assert email[..k + 1] == email[..k] + [c];
      }
      k := k + 1;
    }
    ok := st == Done;
    if st == Done {
      EmailFromScan(email, at, dot);
    } else if st == Local {
      assert email[..k] == email;
      NotEmailWithoutAt(email);
    } else if st != Reject && st != Start {
      NotEmailIfNoHostDot(email, at, if st == HostDot then k - 1 else k);
    }
  }

  /** What a valid address looks like: exactly one `@`, no whitespace, a
      non-empty local part, and a `.` after the `@` with text on both sides. */
  lemma EmailShapeFacts(s: string)
    requires EmailShape(s)
    ensures multiset(s)['@'] == 1
    ensures forall k :: 0 <= k < |s| ==> !IsWhitespace(s[k])
    ensures exists at, dot ::
      0 < at && at + 1 < dot < |s| - 1 && s[at] == '@' && s[dot] == '.'
  {
    var at, dot :| EmailSplit(s, at, dot);
    EmailSplitChars(s, at, dot);
    assert s == s[..at] + [s[at]] + s[at + 1..];
    assert '@' !in s[..at];
    var tail := s[at + 1..];
    assert '@' !in tail by {
      forall k | 0 <= k < |tail| ensures tail[k] != '@' {
        assert tail[k] == s[at + 1 + k];
      }
    }
    calc {
      multiset(s)['@'];
      multiset(s[..at])['@'] + multiset([s[at]])['@'] + multiset(s[at + 1..])['@'];
      1;
    }
    assert |s[at + 1..dot]| > 0 && |s[dot + 1..]| > 0;
  }

  // ---------------------------------------------------------------------------
  // trim, validateBoardTitle, sanitizeString
  // ---------------------------------------------------------------------------

  const MaxTitleLength := 200

  predicate AllWhitespace(s: string) {
    forall k :: 0 <= k < |s| ==> IsWhitespace(s[k])
  }

  /** `s` starts or ends with a character `trim()` would remove */
  predicate HasEdgeWhitespace(s: string) {
    |s| > 0 && (IsWhitespace(s[0]) || IsWhitespace(s[|s| - 1]))
  }

  /** The first index at or after `i` that does not hold whitespace, or `|s|` */
  function SkipLeading(s: string, i: nat): (j: nat)
    requires i <= |s|
    ensures i <= j <= |s|
    ensures forall k :: i <= k < j ==> IsWhitespace(s[k])
    ensures j < |s| ==> !IsWhitespace(s[j])
    decreases |s| - i
  {
    if i < |s| && IsWhitespace(s[i]) then SkipLeading(s, i + 1) else i
  }

  /** The least index `e`, between `lo` and `j`, such that `s[e..j]` is all
      whitespace */
  function SkipTrailing(s: string, lo: nat, j: nat): (e: nat)
    requires lo <= j <= |s|
    ensures lo <= e <= j
    ensures forall k :: e <= k < j ==> IsWhitespace(s[k])
    ensures e > lo ==> !IsWhitespace(s[e - 1])
    decreases j
  {
    if j > lo && IsWhitespace(s[j - 1]) then SkipTrailing(s, lo, j - 1) else j
  }

  /** `s[a..b]` is what is left after cutting whitespace only, and as much of
      it as possible, from both ends of `s` */
  predicate TrimmedAt(s: string, a: int, b: int) {
    && 0 <= a <= b <= |s|
    && (forall k :: 0 <= k < a ==> IsWhitespace(s[k]))
    && (forall k :: b <= k < |s| ==> IsWhitespace(s[k]))
    && (a < b ==> !IsWhitespace(s[a]) && !IsWhitespace(s[b - 1]))
  }

  /** The declarative reading of `s.trim() === r` */
  ghost predicate IsTrimOf(s: string, r: string) {
    exists a, b :: TrimmedAt(s, a, b) && r == s[a..b]
  }

  /** `String.prototype.trim` */
  function Trim(s: string): (r: string)
    ensures IsTrimOf(s, r)
    ensures |r| <= |s|
    ensures |r| == 0 <==> AllWhitespace(s)
    ensures |r| > 0 ==> !IsWhitespace(r[0]) && !IsWhitespace(r[|r| - 1])
    ensures multiset(r) <= multiset(s)
    ensures !HasEdgeWhitespace(s) ==> r == s
  {
    var a := SkipLeading(s, 0);
    var b := SkipTrailing(s, a, |s|);
    TrimBounds(s, a, b);
    SliceMultiset(s, a, b);
    s[a..b]
  }

  /** The bounds `trim()` cuts at: nothing is left iff all is whitespace, the
      first and last characters kept are not whitespace, and a string without
      edge whitespace is kept whole. */
  lemma TrimBounds(s: string, a: nat, b: nat)
    requires a == SkipLeading(s, 0) && b == SkipTrailing(s, a, |s|)
    ensures a == b <==> AllWhitespace(s)
    ensures a < b ==> !IsWhitespace(s[a]) && !IsWhitespace(s[b - 1])
    ensures !HasEdgeWhitespace(s) ==> a == 0 && b == |s|
    ensures TrimmedAt(s, a, b)
  {
  }

  /** Two ways of cutting edge whitespace off one string leave the same middle. */
  lemma TrimmedAtUnique(s: string, a: int, b: int, a': int, b': int)
    requires TrimmedAt(s, a, b) && TrimmedAt(s, a', b')
    ensures s[a..b] == s[a'..b']
  {
  }

  /** `trim()` is the only result the declarative reading allows. */
  lemma TrimIsUnique(s: string, t: string)
    requires IsTrimOf(s, t)
    ensures t == Trim(s)
  {
    var a, b :| TrimmedAt(s, a, b) && t == s[a..b];
    var a', b' :| TrimmedAt(s, a', b') && Trim(s) == s[a'..b'];
    TrimmedAtUnique(s, a, b, a', b');
  }

  /** A slice holds no character more often than the whole string. */
  lemma SliceMultiset(s: string, a: nat, b: nat)
    requires a <= b <= |s|
    ensures multiset(s[a..b]) <= multiset(s)
  {
    assert s == s[..a] + s[a..b] + s[b..];
  }

  /** `validateBoardTitle`: some non-whitespace character, at most 200 characters. */
  function ValidateBoardTitle(title: string): (ok: bool)
    ensures ok <==>
      (exists k :: 0 <= k < |title| && !IsWhitespace(title[k])) && |title| <= MaxTitleLength
  {
    |Trim(title)| > 0 && |title| <= MaxTitleLength
  }

  predicate IsAngle(c: char) {
    c == '<' || c == '>'
  }

  predicate NoAngles(s: string) {
    forall k :: 0 <= k < |s| ==> !IsAngle(s[k])
  }

  /** The characters of `s` that are not angle brackets, in order */
  function KeepNonAngles(s: string): string {
    if |s| == 0 then [] else (if IsAngle(s[0]) then [] else [s[0]]) + KeepNonAngles(s[1..])
  }

  lemma {:induction false} KeepNonAnglesShape(s: string)
    ensures NoAngles(KeepNonAngles(s))
    ensures |KeepNonAngles(s)| <= |s|
    ensures NoAngles(s) ==> KeepNonAngles(s) == s
  {
    if |s| > 0 {
      KeepNonAnglesShape(s[1..]);
      assert s == [s[0]] + s[1..];
    }
  }

  lemma {:induction false} KeepNonAnglesCounts(s: string)
    ensures forall c :: !IsAngle(c) ==> multiset(KeepNonAngles(s))[c] == multiset(s)[c]
  {
    if |s| > 0 {
      var head := if IsAngle(s[0]) then [] else [s[0]];
      var rest := KeepNonAngles(s[1..]);
      KeepNonAnglesCounts(s[1..]);
      assert s == [s[0]] + s[1..];
      assert multiset(s) == multiset([s[0]]) + multiset(s[1..]);
      assert multiset(KeepNonAngles(s)) == multiset(head) + multiset(rest);
    }
  }

  /** Dropping angle brackets works piece by piece. */
  lemma {:induction false} KeepNonAnglesConcat(x: string, y: string)
    ensures KeepNonAngles(x + y) == KeepNonAngles(x) + KeepNonAngles(y)
  {
    if |x| == 0 {
      assert x + y == y;
    } else {
      assert (x + y)[0] == x[0] && (x + y)[1..] == x[1..] + y;
      KeepNonAnglesConcat(x[1..], y);
    }
  }

  /** `replace(/[<>]/g, '')` */
  function RemoveAngles(s: string): (r: string)
    ensures NoAngles(r)
    ensures |r| <= |s|
    ensures NoAngles(s) ==> r == s
    ensures forall c :: !IsAngle(c) ==> multiset(r)[c] == multiset(s)[c]
  {
    KeepNonAnglesShape(s);
    KeepNonAnglesCounts(s);
    KeepNonAngles(s)
  }

  /** The global replace works character by character: together with the
      contract of `RemoveAngles` this fixes the result, order included. */
  lemma RemoveAnglesConcat(x: string, y: string)
    ensures RemoveAngles(x + y) == RemoveAngles(x) + RemoveAngles(y)
  {
    KeepNonAnglesConcat(x, y);
  }

  lemma TrimIsTheOnlyTrim(s: string)
    ensures forall t :: IsTrimOf(s, t) ==> t == Trim(s)
  {
    forall t | IsTrimOf(s, t) ensures t == Trim(s) {
      TrimIsUnique(s, t);
    }
  }

  /** `sanitizeString`: trim, then drop every angle bracket. */
  function SanitizeString(s: string): (r: string)
    ensures NoAngles(r)
    ensures |r| <= |s|
    ensures forall c :: !IsAngle(c) ==> multiset(r)[c] == multiset(Trim(s))[c]
    ensures NoAngles(s) && !HasEdgeWhitespace(s) ==> r == s
    ensures forall t :: IsTrimOf(s, t) ==> r == RemoveAngles(t)
  {
    TrimIsTheOnlyTrim(s);
    var t := Trim(s);
    assert NoAngles(s) ==> NoAngles(t);
    RemoveAngles(t)
  }

  // ---------------------------------------------------------------------------
  // validateFileType, validateFileSize
  // ---------------------------------------------------------------------------

  const AllowedTypes: seq<string> := [
    "image/jpeg", "image/jpg", "image/png", "image/gif", "image/webp",
    "image/svg+xml", "application/pdf"
  ]

  const ImagePrefix := "image/"
  const ImageSubtypes: set<string> := {"jpeg", "jpg", "png", "gif", "webp", "svg+xml"}

  /** `validateFileType`: exact, case-sensitive membership in the allow-list */
  function ValidateFileType(mimetype: string): (ok: bool)
    ensures ok <==> (mimetype == "application/pdf" ||
      (|mimetype| > 6 && mimetype[..6] == ImagePrefix && mimetype[6..] in ImageSubtypes))
  {
    AllowedTypesShape(mimetype);
    mimetype in AllowedTypes
  }

  /** The allow-list is `application/pdf` and six `image/` subtypes. */
  lemma AllowedTypesShape(m: string)
    ensures m in AllowedTypes <==>
      (m == "application/pdf" || (|m| > 6 && m[..6] == ImagePrefix && m[6..] in ImageSubtypes))
  {
    if |m| > 6 && m[..6] == ImagePrefix {
      assert m == ImagePrefix + m[6..];
      assert ImagePrefix + "jpeg" == AllowedTypes[0] && ImagePrefix + "jpg" == AllowedTypes[1];
      assert ImagePrefix + "png" == AllowedTypes[2] && ImagePrefix + "gif" == AllowedTypes[3];
      assert ImagePrefix + "webp" == AllowedTypes[4] && ImagePrefix + "svg+xml" == AllowedTypes[5];
    }
  }

  predicate IsUpper(c: char) {
    'A' <= c <= 'Z'
  }

  function ToUpper(c: char): (u: char)
    ensures !IsUpper(c) && !('a' <= c <= 'z') ==> u == c
    ensures 'a' <= c <= 'z' ==> IsUpper(u)
  {
    if 'a' <= c <= 'z' then (c as int - 32) as char else c
  }

  /** `toUpperCase()` restricted to ASCII letters */
  function UpperCase(s: string): (r: string)
    ensures |r| == |s| && forall k :: 0 <= k < |s| ==> r[k] == ToUpper(s[k])
  {
    seq(|s|, k requires 0 <= k < |s| => ToUpper(s[k]))
  }

  /** The allow-list is compared case-sensitively: no accepted type has an upper
      case letter, and the upper-cased spelling of an accepted type is refused. */
  lemma FileTypeIsCaseSensitive(m: string)
    ensures ValidateFileType(m) ==> forall k :: 0 <= k < |m| ==> !IsUpper(m[k])
    ensures ValidateFileType(m) ==> !ValidateFileType(UpperCase(m))
    ensures ValidateFileType("image/png") && !ValidateFileType("IMAGE/PNG")
  {
    if ValidateFileType(m) {
      assert m[0] == 'i' || m[0] == 'a';
      assert UpperCase(m)[0] == 'I' || UpperCase(m)[0] == 'A';
    }
    assert "IMAGE/PNG"[0] == 'I';
  }

  const BytesPerMegabyte := 1024 * 1024

  /** `validateFileSize`, with the limit given in megabytes (default 10) */
  function ValidateFileSize(size: int, maxSizeMB: int := 10): (ok: bool)
  {
    size <= maxSizeMB * BytesPerMegabyte
  }

  /** The default limit is 10 MiB, and raising the limit never rejects a size
      that a lower limit accepted. */
  lemma FileSizeLimit(size: int, lo: int, hi: int)
    requires lo <= hi
    ensures ValidateFileSize(size) <==> size <= 10485760
    ensures ValidateFileSize(size, lo) ==> ValidateFileSize(size, hi)
  {
  }

  // ---------------------------------------------------------------------------
  // validateProjectData
  // ---------------------------------------------------------------------------

  /** `validateProjectData`: a truthy object whose `elements` or `pages` is an
      array. */
  function ValidateProjectData(data: Value): (ok: bool)
    ensures ok <==>
      data.Obj? &&
      (("elements" in data.fields && data.fields["elements"].Arr?) ||
       ("pages" in data.fields && data.fields["pages"].Arr?))
  {
    if !Truthy(data) || TypeOf(data) != "object" then false
    else if !IsArray(Get(data, "elements")) && !IsArray(Get(data, "pages")) then false
    else true
  }
}

=== FILE: wrappers.dfy ===
/** The optional-value datatype used throughout the model for JavaScript's
    `undefined` / `null` results and for possibly-missing rows. */
module Wrappers {

  datatype Option<+T> = None | Some(value: T)
}

=== FILE: ydoc.dfy ===
/** An abstract stand-in for the shared Yjs document. A document is the set of
    operations integrated so far; an update (an incremental delta or a full
    state encoding alike) is also a set of operations. Merging is set union,
    which is what makes the relay's correctness independent of the order in
    which deltas arrive. */
module YDoc {
  import opened Js

  /** One item of document content, identified as in Yjs by the client that
      created it and that client's clock. */
  datatype Op = Op(client: nat, clock: nat, content: Bytes)

  type Update = set<Op>
  type Doc = set<Op>

  /** A stored document blob: either bytes `Y.applyUpdate` decodes to an
      update, or bytes it rejects by throwing (for instance JSON text). */
  datatype Blob = Encoded(update: Update) | Undecodable

  /** A freshly constructed `new Y.Doc()` */
  const EmptyDoc: Doc := {}

  /** `Y.applyUpdate(doc, update)` */
  function ApplyUpdate(doc: Doc, update: Update): (d: Doc)
    ensures doc <= d && update <= d
    ensures forall o :: o in d ==> o in doc || o in update
  {
    doc + update
  }

  /** `Y.encodeStateAsUpdate(doc)`: enough to rebuild the document from nothing */
  function EncodeStateAsUpdate(doc: Doc): (u: Update)
    ensures ApplyUpdate(EmptyDoc, u) == doc
  {
    doc
  }

  /** The payload of the document's `update` event when `update` is applied to
      `doc`: the content newly integrated. The event fires only when this is
      non-empty. */
  function Change(doc: Doc, update: Update): (c: Update)
    ensures c == {} <==> update <= doc
    ensures ApplyUpdate(doc, c) == ApplyUpdate(doc, update)
    ensures forall o :: o in c ==> o !in doc
    ensures (forall o :: o in update ==> o !in doc) ==> c == update
  {
    var c := update - doc;
    assert forall o :: o in update && o !in doc ==> o in c;
    c
  }

  /** Applying the updates one after another, left to right */
  function ApplyAll(doc: Doc, updates: seq<Update>): Doc
    decreases |updates|
  {
    if |updates| == 0 then doc
    else ApplyAll(ApplyUpdate(doc, updates[0]), updates[1..])
  }

  /** Applying a sequence of updates adds exactly the operations of its members. */
  lemma {:induction false} ApplyAllContents(doc: Doc, updates: seq<Update>)
    ensures forall o :: o in ApplyAll(doc, updates) <==>
      o in doc || exists i :: 0 <= i < |updates| && o in updates[i]
    decreases |updates|
  {
    if |updates| > 0 {
      ApplyAllContents(ApplyUpdate(doc, updates[0]), updates[1..]);
      forall o ensures (exists i :: 0 <= i < |updates| && o in updates[i]) <==>
        o in updates[0] || exists j :: 0 <= j < |updates[1..]| && o in updates[1..][j]
      {
        if i :| 0 <= i < |updates| && o in updates[i] {
          if i > 0 {
            assert updates[1..][i - 1] == updates[i];
          }
        }
        if j :| 0 <= j < |updates[1..]| && o in updates[1..][j] {
          assert updates[j + 1] == updates[1..][j];
        }
      }
    }
  }

  /** Convergence: two replicas that apply the same updates, each in its own
      order and with repetitions, end up equal. */
  lemma Convergence(doc: Doc, us: seq<Update>, vs: seq<Update>)
    requires forall u :: u in us <==> u in vs
    ensures ApplyAll(doc, us) == ApplyAll(doc, vs)
  {
    ApplyAllContents(doc, us);
    ApplyAllContents(doc, vs);
    forall o | o in ApplyAll(doc, us) ensures o in ApplyAll(doc, vs) {
      if i :| 0 <= i < |us| && o in us[i] {
        assert us[i] in vs;
      }
    }
    forall o | o in ApplyAll(doc, vs) ensures o in ApplyAll(doc, us) {
      if i :| 0 <= i < |vs| && o in vs[i] {
        assert vs[i] in us;
      }
    }
  }

  /** Two updates commute, and applying an update twice is applying it once. */
  lemma MergeLaws(doc: Doc, u: Update, v: Update)
    ensures ApplyUpdate(ApplyUpdate(doc, u), v) == ApplyUpdate(ApplyUpdate(doc, v), u)
    ensures ApplyUpdate(ApplyUpdate(doc, u), u) == ApplyUpdate(doc, u)
  {
  }
}
